=== FILE: README.md ===
# mc-auth in Dafny

A model of the core of mc-auth, the Java library that signs a player in to
Minecraft: Java Edition through a Microsoft account. Sign-in runs in three steps:

1. **Microsoft.** The OAuth 2.0 device authorization grant of RFC 8628 yields a
   Microsoft token. That token is later renewed with the refresh grant of
   section 6 of RFC 6749.
2. **Xbox Live.** The Microsoft token is exchanged for an Xbox Live (XBL) user
   token, and that token for an XSTS token.
3. **Minecraft services.** The XSTS token buys a Mojang access token. That
   token reads the player's profile and announces a server join to the session
   server.

The model also covers the helpers these steps use:
- the undashed UUID text Mojang sends, and minification back to it;
- the signed hexadecimal server hash of the legacy join protocol;
- the `application/x-www-form-urlencoded` form body;
- reading the Xbox user id out of the Mojang token, which is a JWT.

Modules, one file each:

| file | module | models |
|---|---|---|
| `common.dfy` | `Common` | `Option`, `Result`, the exceptions as `Failure`, `Reply` (a parsed response or a failed exchange), Java `int`/`long` and their wrap-around, nullable strings |
| `text.dfy` | `Text` | Java's `String.split` on one character (trailing empty pieces dropped), `trim`, and decimal/hex rendering and parsing of integers |
| `auth_utils.dfy` | `AuthUtils` | `parseMojangUuid`, `minifyUuid`, `calculateServerHash` |
| `base64.dfy` | `Base64Url` | the URL-safe Base64 decoder of section 5 of RFC 4648, with the JDK decoder's rules, and the encoder it inverts |
| `json.dfy` | `Json` | parsed JSON values and nanojson's lenient accessors (`getString`, `getInt`, `getLong`, `getObject`, `getArray`) |
| `tokens.dfy` | `Tokens` | `Token` and its three subclasses, `isExpired`, `getXboxUserId` and `jwtPayload` |
| `url_encoding.dfy` | `UrlEncoding` | `URLEncoder.encode(_, UTF_8)` and the form decoding that inverts it |
| `form_body.dfy` | `Forms` | the `FormBody` class (a mutable map) and `asRequestString` |
| `microsoft.dfy` | `MicrosoftAuthenticator` | the device-code request, polling, refresh, error messages, and the `Builder` class |
| `xbox.dfy` | `XboxAuthenticator` | the XBL and XSTS requests, the reply handling and the XErr messages |
| `mojang.dfy` | `MojangAuthenticator` | the login, profile and session-join requests and replies |

How the model represents the Java program:

- **Requests and the transport.** Each network call becomes two things: a
  function that builds the request, and a function of the already-parsed reply
  that decides the result. The transport is a function parameter `send`. It
  maps a request to `Received(json)` or to `Failed`. `Failed` stands for
  `IOException`, `InterruptedException` and `JsonParserException`, which the
  source wraps in an `AuthenticationException`.
- **The clock.** The wall clock is a parameter `now`, in milliseconds.
- **Nulls and exceptions.** A Java string that may be null is a `Nullable`.
  Concatenating a null string renders "null". An exception the source lets
  escape becomes an `Err` carrying a `Failure`. The null dereferences of null
  strings read from replies or set on forms, and the index errors, are
  modelled at the points where they happen. Object arguments are never null
  (see "## Left out").
- **FormBody.** `FormBody` is a class whose `values` field is the map that
  `add` updates in place. `asRequestString` is a method with a loop over the
  keys. The loop may visit the keys in any order, and the contract holds
  whatever the order is.
- **The Microsoft calls.** The device-code, polling and refresh operations
  are methods. Each builds a `FormBody`, serialises it, sends it, and returns
  the form request it sent alongside the result.
- **Error message text.** The length message of `parseMojangUuid` keeps the
  source's wording "(should be 34)", although the length it checks is 32.

## Model

| member | source | states |
|---|---|---|
| Common.WrapInt | src/main/java/com/melluh/mcauth/MicrosoftAuthenticator.java:57 | Java int narrowing: the result is congruent to the input modulo 2^32 and equals it when it is in range |
| Common.WrapLong | src/main/java/com/melluh/mcauth/MicrosoftAuthenticator.java:142 | Java long arithmetic: the result is congruent to the exact value modulo 2^64 and equals it when it is in range |
| Common.Show | src/main/java/com/melluh/mcauth/MicrosoftAuthenticator.java:34 | string concatenation renders a null string as "null" and any other string as itself |
| Text.JavaSplitFirst | src/main/java/com/melluh/mcauth/MicrosoftAuthenticator.java:34 | `split("\\n")` is empty exactly when the text is non-empty and made only of newlines; otherwise its first piece is the text before the first newline |
| Text.JavaSplitJoin | src/main/java/com/melluh/mcauth/tokens/MojangToken.java:29 | separator-free pieces, the last one non-empty, joined with any number of trailing separators split back into exactly those pieces |
| Text.ParseIntToString | src/main/java/com/melluh/mcauth/utils/AuthUtils.java:33 | the signed rendering of an integer in radix 2 to 16 parses back to the same integer |
| AuthUtils.Dashed | src/main/java/com/melluh/mcauth/utils/AuthUtils.java:19-20 | the 36-character text has dashes at 8, 13, 18 and 23, and every character of the 32-character input at its place between them |
| AuthUtils.ParseMojangUuid | src/main/java/com/melluh/mcauth/utils/AuthUtils.java:15-21 | a length other than 32 UTF-16 units fails with exactly the length message; otherwise parsing succeeds iff every character is a hex digit of either case or a '+' opening one of the five components, and the UUID's digits are their values, a '+' counting as 0; a 32-unit text that is not such a UUID fails with the invalid-UUID error |
| AuthUtils.ParseMojangUuidSign | src/main/java/com/melluh/mcauth/utils/AuthUtils.java:19-20 | a '+' in an otherwise hexadecimal id is accepted exactly when it opens a component, and then reads as a leading zero |
| AuthUtils.MinifyUuid | src/main/java/com/melluh/mcauth/utils/AuthUtils.java:23-25 | the result is 32 lowercase hex digits, the i-th standing for the UUID's i-th digit |
| AuthUtils.RemoveDashesOfDashed | src/main/java/com/melluh/mcauth/utils/AuthUtils.java:24 | removing the dashes from the dashed form of a dash-free 32-character text gives that text back |
| AuthUtils.MinifyParseMojangUuid | src/main/java/com/melluh/mcauth/utils/AuthUtils.java:15-25 | an undashed lowercase id, as Mojang sends it, is parsed and minified back to itself |
| AuthUtils.ParseMojangUuidMinify | src/main/java/com/melluh/mcauth/utils/AuthUtils.java:15-25 | every UUID, minified and parsed again, is itself |
| MojangAuthenticator.ShortProfileId | src/main/java/com/melluh/mcauth/utils/AuthUtils.java:16-17 | an id of hex digits whose length is not 32, the 31-digit "069a79f444e94726a5befca90e38aaf" among them, fails the length check with the length message |
| AuthUtils.Latin1RoundTrip | src/main/java/com/melluh/mcauth/utils/AuthUtils.java:30 | a server id made of ISO-8859-1 characters is encoded one byte per character without loss |
| AuthUtils.DigestInput | src/main/java/com/melluh/mcauth/utils/AuthUtils.java:29-32 | the digest input is the ISO-8859-1 server id, then the secret key's encoding, then the public key's encoding |
| AuthUtils.ServerHash | src/main/java/com/melluh/mcauth/utils/AuthUtils.java:27-37 | the hash text parses, as a signed hex number, to the SHA-1 digest of that input read as a two's-complement big-endian number |
| AuthUtils.HashTextShape | src/main/java/com/melluh/mcauth/utils/AuthUtils.java:33 | the hash text starts with '-' iff the digest's top bit is set; the rest is lowercase hex digits with no leading zero |
| AuthUtils.HashTextZero | src/main/java/com/melluh/mcauth/utils/AuthUtils.java:33 | an all-zero digest renders as "0" |
| AuthUtils.HashTextParses | src/main/java/com/melluh/mcauth/utils/AuthUtils.java:33 | the hash text parses back to the signed value of the digest |
| AuthUtils.HashTextInjective | src/main/java/com/melluh/mcauth/utils/AuthUtils.java:33 | two digests of one length with the same hash text are the same digest |
| Base64Url.SextetOf | src/main/java/com/melluh/mcauth/tokens/MojangToken.java:33 | a character the URL-safe alphabet accepts stands for a value below 64 whose alphabet character it is |
| Base64Url.DecodeUnit | src/main/java/com/melluh/mcauth/tokens/MojangToken.java:33 | four alphabet characters in front decode to their three bytes ahead of whatever the rest decodes to |
| Base64Url.DecodeFullUnit | src/main/java/com/melluh/mcauth/tokens/MojangToken.java:33 | text with a full unit in front decodes exactly when the rest does, to three bytes more |
| Base64Url.DecodeAlphabetOnly | src/main/java/com/melluh/mcauth/tokens/MojangToken.java:33 | text of alphabet characters only decodes iff its length is not 1 modulo 4, and then to three bytes per four characters plus one fewer than the characters of a shorter final unit |
| Base64Url.DecodeRejectsForeign | src/main/java/com/melluh/mcauth/tokens/MojangToken.java:33 | a character that is neither in the URL-safe alphabet nor '=' makes the decoder throw, wherever it stands |
| Base64Url.DecodePadded | src/main/java/com/melluh/mcauth/tokens/MojangToken.java:33 | where the first non-alphabet character is '=', the text decodes iff that '=' is the fourth character of its unit and ends the text, or the third and followed by one more '=' that ends it |
| Base64Url.EncodeInAlphabet | src/main/java/com/melluh/mcauth/tokens/MojangToken.java:29-33 | the encoder writes only alphabet characters, never the '.' that separates JWT segments |
| Base64Url.DecodeEncode | src/main/java/com/melluh/mcauth/tokens/MojangToken.java:33 | the URL decoder recovers every byte sequence from its unpadded encoding |
| Base64Url.DecodeEncodePadded | src/main/java/com/melluh/mcauth/tokens/MojangToken.java:33 | the URL decoder also recovers every byte sequence from its '='-padded encoding |
| Json.GetString | src/main/java/com/melluh/mcauth/MicrosoftAuthenticator.java:58-59 | a string is returned iff the key holds a string; a missing or non-string member reads as null |
| Json.GetInt | src/main/java/com/melluh/mcauth/MicrosoftAuthenticator.java:57 | a number is narrowed to int, wrapping modulo 2^32, so an in-range number is returned as is; a missing or non-number member reads as 0 |
| Json.GetLong | src/main/java/com/melluh/mcauth/XboxAuthenticator.java:72 | a number is narrowed to long, wrapping modulo 2^64, so an in-range number is returned as is; a missing or non-number member reads as 0 |
| Json.GetObject | src/main/java/com/melluh/mcauth/XboxAuthenticator.java:78 | the object under the key, or an empty one when there is none |
| Json.GetArray | src/main/java/com/melluh/mcauth/XboxAuthenticator.java:78 | the array under the key, or an empty one when there is none |
| Json.ObjectAt | src/main/java/com/melluh/mcauth/XboxAuthenticator.java:78 | the object at the index; an index past the end, where nanojson's array answers null, and a non-object element both read as an empty object |
| Json.StringValue | src/main/java/com/melluh/mcauth/MojangAuthenticator.java:78-82 | a null string is written as JSON null, any other string as itself |
| Tokens.ExpiryMonotone | src/main/java/com/melluh/mcauth/tokens/Token.java:21-23 | `isExpired`: a token is not expired at its own expiry instant, and once expired it stays expired |
| Tokens.ExpiryAfter | src/main/java/com/melluh/mcauth/MicrosoftAuthenticator.java:142 | the expiry instant is now plus `expires_in` seconds in milliseconds, modulo 2^64 |
| Tokens.ExpiryAfterMeaning | src/main/java/com/melluh/mcauth/MicrosoftAuthenticator.java:142 | without overflow, a token issued now is expired at a later instant iff more than its lifetime has passed; a non-negative lifetime is not expired at once |
| Tokens.JwtPayloadBytes | src/main/java/com/melluh/mcauth/tokens/MojangToken.java:28-35 | a null value is a null dereference; a split count other than 3 fails with the format message; a bad middle segment is a Base64 error; otherwise the bytes are the decoded middle segment |
| Tokens.XboxUserId | src/main/java/com/melluh/mcauth/tokens/MojangToken.java:18-25 | the errors of jwtPayload pass through; an unparsable payload fails with the invalid-JSON message; otherwise the result is the payload's "xuid" string or null |
| Tokens.CompactSplit | src/main/java/com/melluh/mcauth/tokens/MojangToken.java:29-31 | a three-segment compact token, even with trailing dots, splits into exactly its three segments |
| Tokens.XboxUserIdOfCompact | src/main/java/com/melluh/mcauth/tokens/MojangToken.java:18-35 | for a compact token whose payload segment encodes some bytes, jwtPayload returns those bytes and the Xbox user id is read from them, whatever the header and signature |
| Tokens.UnsignedTokenRejected | src/main/java/com/melluh/mcauth/tokens/MojangToken.java:29-31 | a token with an empty signature segment splits into two pieces and fails with the format message |
| Tokens.EmptyPayloadSegment | src/main/java/com/melluh/mcauth/tokens/MojangToken.java:29-33 | an empty payload segment passes the count check and decodes to no bytes |
| UrlEncoding.HexUpper | src/main/java/com/melluh/mcauth/utils/FormBody.java:22 | an escape digit is an uppercase hex digit of the value it stands for |
| UrlEncoding.Utf8RoundTrip | src/main/java/com/melluh/mcauth/utils/FormBody.java:22 | the UTF-8 bytes of every character decode back to that character |
| UrlEncoding.UrlEncode | src/main/java/com/melluh/mcauth/utils/FormBody.java:22 | the encoding is never shorter than the text |
| UrlEncoding.EncodeCharLength | src/main/java/com/melluh/mcauth/utils/FormBody.java:22 | a character stays one character iff it is unreserved or a space |
| UrlEncoding.UrlEncodeLength | src/main/java/com/melluh/mcauth/utils/FormBody.java:22 | the encoding keeps the text's length iff no character needs a percent escape |
| UrlEncoding.UrlEncodeUnreserved | src/main/java/com/melluh/mcauth/utils/FormBody.java:22 | text of letters, digits and "-_.*" is its own encoding |
| UrlEncoding.UrlEncodeChars | src/main/java/com/melluh/mcauth/utils/FormBody.java:22 | encoded text uses only letters, digits, "-_.*", '+' and '%', so never '&' or '=' |
| UrlEncoding.DecodeStepEncodeChar | src/main/java/com/melluh/mcauth/utils/FormBody.java:22 | the decoder reads exactly one encoded character back from the front of any text |
| UrlEncoding.UrlDecodeEncode | src/main/java/com/melluh/mcauth/utils/FormBody.java:22 | form decoding undoes URLEncoder.encode on every string |
| UrlEncoding.UrlEncodeInjective | src/main/java/com/melluh/mcauth/utils/FormBody.java:22 | different strings have different encodings |
| Forms.Pair | src/main/java/com/melluh/mcauth/utils/FormBody.java:22 | a `key=value` pair holds an '=' and no '&' |
| Forms.Pairs | src/main/java/com/melluh/mcauth/utils/FormBody.java:21-22 | one pair per listed key, in the order listed, each encoding that key and its value |
| Forms.DecodePiecePair | src/main/java/com/melluh/mcauth/utils/FormBody.java:22 | a pair read back at its first '=' gives its key and value |
| Forms.DecodePairs | src/main/java/com/melluh/mcauth/utils/FormBody.java:21-22 | the pairs read back give the listed entries |
| Forms.JoinEnds | src/main/java/com/melluh/mcauth/utils/FormBody.java:23 | joined non-empty pairs neither start nor end with the separator |
| Forms.FormDecodeSerialise | src/main/java/com/melluh/mcauth/utils/FormBody.java:20-24 | for any order of the keys, the body reads back as exactly the map's entries; it is empty iff the map is, and has no leading or trailing '&' |
| Forms.FormBody.constructor | src/main/java/com/melluh/mcauth/utils/FormBody.java:13 | a new body holds no entries |
| Forms.FormBody.Add | src/main/java/com/melluh/mcauth/utils/FormBody.java:15-18 | the key now maps to the value, replacing an earlier one; other keys are untouched; the same body is returned |
| Forms.FormBody.AsRequestString | src/main/java/com/melluh/mcauth/utils/FormBody.java:20-24 | fails with a null dereference iff some value is null; otherwise the text is the serialisation of all entries in some order of the keys |
| MicrosoftAuthenticator.GetError | src/main/java/com/melluh/mcauth/MicrosoftAuthenticator.java:33-36 | a null description is a null dereference; a description made only of newlines is an index error; otherwise the message is the prefix, the error and the trimmed first line of the description in parentheses |
| MicrosoftAuthenticator.GetErrorFirstLine | src/main/java/com/melluh/mcauth/MicrosoftAuthenticator.java:34 | only the first line of a multi-line description shows up in the message, trimmed and free of newlines |
| MicrosoftAuthenticator.TokenFromJson | src/main/java/com/melluh/mcauth/MicrosoftAuthenticator.java:141-144 | the token carries the reply's access token and refresh token, and expires `expires_in` seconds after now |
| MicrosoftAuthenticator.DeviceCodeFromReply | src/main/java/com/melluh/mcauth/MicrosoftAuthenticator.java:49-62 | a failed exchange is the device-code failure; an "error" member is the formatted error; otherwise the five fields come from the reply |
| MicrosoftAuthenticator.DeviceCodeExpires | src/main/java/com/melluh/mcauth/MicrosoftAuthenticator.java:57-69 | without overflow, a device code is expired at a later reading iff more than `expires_in` seconds have passed since it was read |
| MicrosoftAuthenticator.DeviceCodeExpiryMonotone | src/main/java/com/melluh/mcauth/MicrosoftAuthenticator.java:67-69 | `DeviceCode.expired`: a code is not expired at its own expiry instant, and once expired it stays expired |
| MicrosoftAuthenticator.ClassifyPoll | src/main/java/com/melluh/mcauth/MicrosoftAuthenticator.java:87-103 | polling is Accepted, with a token, iff there is no "error" member. It is Pending iff the error is "authorization_pending" and Declined iff it is "authorization_declined". A null error is a null dereference, any other error the formatted error, and never Expired |
| MicrosoftAuthenticator.SlowDownIsError | src/main/java/com/melluh/mcauth/MicrosoftAuthenticator.java:91-97 | the "slow_down" answer fails with the formatted error instead of a polling state |
| MicrosoftAuthenticator.RefreshFromReply | src/main/java/com/melluh/mcauth/MicrosoftAuthenticator.java:126-137 | the refresh succeeds iff the exchange did and the reply has no "error" member, and then yields the token read from the reply |
| MicrosoftAuthenticator.BodyReadsBack | src/main/java/com/melluh/mcauth/utils/FormBody.java:20-24 | a serialised form whose entries are some fields reads back as exactly those fields |
| MicrosoftAuthenticator.Exchange | src/main/java/com/melluh/mcauth/MicrosoftAuthenticator.java:44-50 | the request is sent iff no form value is null, and then carries a serialisation of the form to the given endpoint |
| MicrosoftAuthenticator.DeviceCodeForm | src/main/java/com/melluh/mcauth/MicrosoftAuthenticator.java:40-42 | the device-code form is never null and reads back as client_id and scope |
| MicrosoftAuthenticator.PollForm | src/main/java/com/melluh/mcauth/MicrosoftAuthenticator.java:77-80 | the polling form has a null value iff the device code is null, and otherwise reads back as client_id, grant_type and device_code |
| MicrosoftAuthenticator.RefreshForm | src/main/java/com/melluh/mcauth/MicrosoftAuthenticator.java:115-119 | the refresh form has a null value iff the refresh token is null, and otherwise reads back as client_id, grant_type=refresh_token, scope and refresh_token |
| MicrosoftAuthenticator.GetDeviceCode | src/main/java/com/melluh/mcauth/MicrosoftAuthenticator.java:38-64 | posts a body reading back as client_id and scope to the device-code endpoint, and the result is the reply's decision |
| MicrosoftAuthenticator.PollDeviceCode | src/main/java/com/melluh/mcauth/MicrosoftAuthenticator.java:72-105 | an expired code answers Expired without sending anything; a null device code is a null dereference; otherwise the polling form goes to the token endpoint and the reply is classified |
| MicrosoftAuthenticator.Refresh | src/main/java/com/melluh/mcauth/MicrosoftAuthenticator.java:113-139 | a null refresh token is a null dereference before any request; otherwise the refresh form goes to the token endpoint and the reply decides |
| MicrosoftAuthenticator.Builder.constructor | src/main/java/com/melluh/mcauth/MicrosoftAuthenticator.java:156-166 | a builder starts with the client id, no client, and the default scope and grant type |
| MicrosoftAuthenticator.Builder.SetHttpClient | src/main/java/com/melluh/mcauth/MicrosoftAuthenticator.java:168-171 | a null client is rejected with its message and nothing changes; otherwise the client is set and the builder returned |
| MicrosoftAuthenticator.Builder.SetScope | src/main/java/com/melluh/mcauth/MicrosoftAuthenticator.java:173-176 | a null scope is rejected with its message and nothing changes; otherwise the scope is set |
| MicrosoftAuthenticator.Builder.SetGrantType | src/main/java/com/melluh/mcauth/MicrosoftAuthenticator.java:178-181 | a null grant type is rejected with its message and nothing changes; otherwise the grant type is set |
| MicrosoftAuthenticator.Builder.Build | src/main/java/com/melluh/mcauth/MicrosoftAuthenticator.java:183-187 | a missing client is replaced by a new default one, which the builder keeps; the authenticator carries the builder's settings |
| MicrosoftAuthenticator.CreateBuilder | src/main/java/com/melluh/mcauth/MicrosoftAuthenticator.java:150-152 | a null client id is rejected; otherwise a fresh builder with the defaults |
| MicrosoftAuthenticator.CreateDefault | src/main/java/com/melluh/mcauth/MicrosoftAuthenticator.java:146-148 | a null client id is rejected; otherwise the authenticator has a new default client, the default scope and the default grant type |
| XboxAuthenticator.ErrorDescriptionTable | src/main/java/com/melluh/mcauth/XboxAuthenticator.java:86-96 | the description agrees with the table of the five documented XErr codes, and every other code is an unknown error |
| XboxAuthenticator.ErrorMessage | src/main/java/com/melluh/mcauth/XboxAuthenticator.java:73 | the message is the Xbox Live error prefix, the code in signed decimal, and the code's description in parentheses |
| XboxAuthenticator.ErrorMessageCode | src/main/java/com/melluh/mcauth/XboxAuthenticator.java:73 | after the prefix, the message holds the XErr code in signed decimal, which parses back to the code |
| XboxAuthenticator.ErrorMessageDescription | src/main/java/com/melluh/mcauth/XboxAuthenticator.java:73 | after the code, the message ends with the code's description in parentheses |
| XboxAuthenticator.XblProperties | src/main/java/com/melluh/mcauth/XboxAuthenticator.java:35-39 | the XBL properties are exactly AuthMethod "RPS", SiteName "user.auth.xboxlive.com" and RpsTicket, the ticket being "d=" and the Microsoft token |
| XboxAuthenticator.XstsProperties | src/main/java/com/melluh/mcauth/XboxAuthenticator.java:46-49 | the XSTS properties are exactly SandboxId "RETAIL" and UserTokens, whose one user token is the XBL token |
| XboxAuthenticator.TokenRequest | src/main/java/com/melluh/mcauth/XboxAuthenticator.java:55-65 | the envelope is exactly Properties, RelyingParty and TokenType "JWT", posted as JSON to the given endpoint |
| XboxAuthenticator.XblRequest | src/main/java/com/melluh/mcauth/XboxAuthenticator.java:33-40 | the XBL request goes to the user.auth.xboxlive.com endpoint for the relying party http://auth.xboxlive.com, with "d=" and the Microsoft token as its RPS ticket |
| XboxAuthenticator.XstsRequest | src/main/java/com/melluh/mcauth/XboxAuthenticator.java:44-50 | the XSTS request goes to the xsts.auth.xboxlive.com endpoint for the relying party rp://api.minecraftservices.com/, naming the XBL token as its one user token |
| XboxAuthenticator.UserHash | src/main/java/com/melluh/mcauth/XboxAuthenticator.java:78 | the hash is the first xui claim's uhs; a missing DisplayClaims or xui, an empty xui or a non-object first claim gives null, as nanojson's defaults do |
| XboxAuthenticator.HandleTokenReply | src/main/java/com/melluh/mcauth/XboxAuthenticator.java:67-83 | a failed exchange is the request failure, and XErr is checked first. Then a null NotAfter is a null dereference and an unparsable one a date-time error. Otherwise the token is Token, the NotAfter instant and the user hash |
| XboxAuthenticator.GetXblToken | src/main/java/com/melluh/mcauth/XboxAuthenticator.java:33-42 | a failed exchange of the XBL request is the request failure; a token returned is the reply's Token |
| XboxAuthenticator.GetXstsToken | src/main/java/com/melluh/mcauth/XboxAuthenticator.java:44-52 | a failed exchange of the XSTS request is the request failure; a token returned is the reply's Token |
| XboxAuthenticator.XErrWins | src/main/java/com/melluh/mcauth/XboxAuthenticator.java:71-74 | a reply carrying XErr fails with an authentication error whatever else it carries |
| XboxAuthenticator.SuccessFields | src/main/java/com/melluh/mcauth/XboxAuthenticator.java:71-80 | a successful reply has no XErr, a parsable NotAfter that is the token's expiry, the Token as the value and the user hash as the hash |
| XboxAuthenticator.NoClaimsNullHash | src/main/java/com/melluh/mcauth/XboxAuthenticator.java:76-80 | a reply without xui claims still yields a token, whose user hash is null |
| XboxAuthenticator.XstsCarriesXblToken | src/main/java/com/melluh/mcauth/XboxAuthenticator.java:44-50 | the XSTS request names as its one user token exactly the Token the XBL reply gave |
| MojangAuthenticator.IdentityToken | src/main/java/com/melluh/mcauth/MojangAuthenticator.java:28 | the identity token starts with "XBL3.0 x=" |
| MojangAuthenticator.IdentityTokenParts | src/main/java/com/melluh/mcauth/MojangAuthenticator.java:39 | after the prefix, the identity token splits at its first ';' into the user hash and the XSTS token |
| MojangAuthenticator.LoginRequest | src/main/java/com/melluh/mcauth/MojangAuthenticator.java:38-45 | the login posts exactly the identity token to the login endpoint |
| MojangAuthenticator.LoginFromReply | src/main/java/com/melluh/mcauth/MojangAuthenticator.java:47-55 | the login fails iff the exchange does; otherwise the token is the reply's access_token, expiring `expires_in` seconds after now |
| MojangAuthenticator.GetAccessToken | src/main/java/com/melluh/mcauth/MojangAuthenticator.java:36-57 | getAccessToken fails with the login failure iff the exchange fails, and otherwise returns the reply's access token |
| MojangAuthenticator.ProfileRequest | src/main/java/com/melluh/mcauth/MojangAuthenticator.java:61-64 | the profile request is a GET with the token as a bearer credential |
| MojangAuthenticator.ProfileFromReply | src/main/java/com/melluh/mcauth/MojangAuthenticator.java:66-72 | a failed exchange is the profile failure; a null id is a null dereference; a bad id fails as parseMojangUuid does; otherwise the profile is the parsed id and the name |
| MojangAuthenticator.ProfileIdLength | src/main/java/com/melluh/mcauth/MojangAuthenticator.java:69 | an id of the wrong length fails with the length message itself, not wrapped |
| MojangAuthenticator.GetProfile | src/main/java/com/melluh/mcauth/MojangAuthenticator.java:59-74 | on success the profile's UUID is what the reply's id parses to, and its name is the reply's name |
| MojangAuthenticator.JoinRequest | src/main/java/com/melluh/mcauth/MojangAuthenticator.java:78-82 | the join body is exactly accessToken, selectedProfile and serverId; selectedProfile is exactly minifyUuid of the profile's UUID, 32 characters that parse back to that UUID |
| MojangAuthenticator.JoinFromReply | src/main/java/com/melluh/mcauth/MojangAuthenticator.java:89-93 | the join succeeds iff the exchange does, and fails with the join failure otherwise |
| MojangAuthenticator.SendJoin | src/main/java/com/melluh/mcauth/MojangAuthenticator.java:76-95 | sendJoin succeeds iff the join exchange does |
| MojangAuthenticator.JoinSendsProfileId | src/main/java/com/melluh/mcauth/MojangAuthenticator.java:69-80 | for a lowercase undashed id from the profile reply, the join names the player by exactly that id |

## Left out

- HTTP transport, `CompletableFuture` and the thread pool. The transport is the parameter `send`. The asynchronous wrapping, including the `CompletionException` around an exception thrown inside `supplyAsync`, is not modelled: the exception itself is the result.
- Parsing and writing JSON text (nanojson's `JsonParser` and `JsonWriter`). Replies arrive already parsed, and requests are JSON values.
- Floating-point JSON numbers. `JNumber` holds an integer, so `intValue`/`longValue` truncation of a fraction is not modelled.
- SHA-1 and the keys' `getEncoded`. The digest is a function parameter and the key encodings are byte sequences. The `NoSuchAlgorithmException` branch (AuthUtils.java:34-35) cannot happen with a supplied digest.
- `Instant.parse(..).toEpochMilli()` in the Xbox reply is the parameter `parseInstant`, None where it throws. Both of its exceptions, a text `Instant.parse` rejects and an instant whose `toEpochMilli` overflows a long, are reported as the one failure `DateTimeParse`.
- Null object arguments are excluded by the types: a null DeviceCode, MicrosoftToken, XboxToken, MojangToken, GameProfile, UUID, form key or key pair, and a null serverId or id passed straight to AuthUtils. The NullPointerException each raises (for example `deviceCode.expired()` at MicrosoftAuthenticator.java:73, `profile.uuid()` at MojangAuthenticator.java:80, `uuid.toString()` at AuthUtils.java:24) is not modelled.
- The UTF-8 decoding of the JWT payload and its JSON parse form one parameter, `parsePayload`.
- `System.currentTimeMillis()` is the parameter `now`. PollDeviceCode uses one reading for both the expiry check and the new token's expiry, where the source reads the clock twice.
- ParseMojangUuid: `UUID.fromString` (as in Java 11 and later, which `java.net.http` requires) reads each component with `Long.parseLong` in radix 16. Its '+' sign is modelled. A '-' inside the id adds a fifth dash and is rejected, as modelled. `Character.digit` also accepts non-ASCII digits, such as other scripts' decimal digits and the fullwidth letters A to F. The model does not, and answers an invalid UUID for an id holding one, because that needs Unicode's digit tables.
- Strings hold Unicode scalar values, so URLEncoder's treatment of an unpaired surrogate does not arise.
- `FormBody.asPublisher` (FormBody.java:26-28) is only `BodyPublishers.ofString(asRequestString())`. It is folded into `Exchange`.
- The Builder classes of XboxAuthenticator and MojangAuthenticator. They only choose an HTTP client, and the client is part of the transport here.
- The `HttpClient` an authenticator holds is recorded as a value only. Which client carries a request is not observable in the model.

=== FILE: auth_utils.dfy ===
/** Identity utilities: Mojang's undashed UUIDs and the legacy session-server
    hash rendering (the SHA-1 digest itself is an input). */
module AuthUtils {
  import opened Common
  import opened Text

  type Nibble = x: int | 0 <= x < 16

  /** A java.util.UUID: its 128 bits as 32 hexadecimal digits, most significant first. */
  type Uuid = n: seq<Nibble> | |n| == 32 witness seq(32, _ => 0)

  // ----- UUID text forms -----

  /** Number of UTF-16 code units in `s` (Java's String.length): one per
      character, two for a character beyond the Basic Multilingual Plane. */
  function Utf16Length(s: string): (n: nat)
    ensures |s| <= n <= 2 * |s|
  {
    if s == "" then 0 else (if s[0] as int >= 0x1_0000 then 2 else 1) + Utf16Length(s[1..])
  }

  /** Where character `i` of an undashed UUID lands in the 8-4-4-4-12 form. */
  function DashedIndex(i: nat): nat {
    if i < 8 then i else if i < 12 then i + 1 else if i < 16 then i + 2 else if i < 20 then i + 3 else i + 4
  }

  /** The text parseMojangUuid builds: dashes inserted after positions 8, 12, 16 and 20. */
  function Dashed(s: string): (d: string)
    requires |s| == 32
    ensures |d| == 36
    ensures d[8] == '-' && d[13] == '-' && d[18] == '-' && d[23] == '-'
    ensures forall i :: 0 <= i < 32 ==> d[DashedIndex(i)] == s[i]
  {
    s[..8] + "-" + s[8..12] + "-" + s[12..16] + "-" + s[16..20] + "-" + s[20..32]
  }

  predicate IsHex(c: char) {
    CharDigit(c).Some?
  }

  /** Positions of the undashed text where one of the five UUID components starts. */
  predicate ComponentStart(i: int) {
    i == 0 || i == 8 || i == 12 || i == 16 || i == 20
  }

  /** What UUID.fromString accepts at position `i` of the undashed text: a hex
      digit of either case, or, first in a component, the '+' sign that
      Long.parseLong allows (the component then has one digit fewer). */
  predicate UuidChar(c: char, i: int) {
    IsHex(c) || (c == '+' && ComponentStart(i))
  }

  /** The digit a position contributes: a sign stands for a leading zero. */
  function UuidDigit(c: char): Nibble
    requires IsHex(c) || c == '+'
  {
    if c == '+' then 0 else CharDigit(c).value
  }

  predicate IsLowerHex(c: char) {
    '0' <= c <= '9' || 'a' <= c <= 'f'
  }

  /** UUID.toString: lowercase hexadecimal in the 8-4-4-4-12 layout. */
  function UuidToString(u: Uuid): (d: string)
    ensures |d| == 36
  {
    Dashed(seq(32, i requires 0 <= i < 32 => DigitChar(u[i])))
  }

  /** String.replace("-", ""): every '-' removed, everything else kept in order. */
  function RemoveDashes(s: string): (r: string)
    ensures '-' !in r
    ensures |r| <= |s|
  {
    if s == "" then "" else (if s[0] == '-' then "" else [s[0]]) + RemoveDashes(s[1..])
  }

  lemma {:induction false} RemoveDashesAppend(a: string, b: string)
    ensures RemoveDashes(a + b) == RemoveDashes(a) + RemoveDashes(b)
    decreases |a|
  {
    if a != "" {
      assert (a + b)[1..] == a[1..] + b;
      RemoveDashesAppend(a[1..], b);
    } else {
      assert a + b == b;
    }
  }

  lemma {:induction false} RemoveDashesNone(s: string)
    requires '-' !in s
    ensures RemoveDashes(s) == s
    decreases |s|
  {
    if s != "" {
      RemoveDashesNone(s[1..]);
      assert s == [s[0]] + s[1..];
    }
  }

  lemma RemoveDashesDash()
    ensures RemoveDashes("-") == ""
  {
    assert "-"[1..] == "";
  }

  lemma RemoveDashesAround(a: string, b: string)
    ensures RemoveDashes(a + "-" + b) == RemoveDashes(a) + RemoveDashes(b)
  {
    RemoveDashesAppend(a + "-", b);
    RemoveDashesAppend(a, "-");
    RemoveDashesDash();
  }

  /** Dashes between dash-free pieces are all that removal takes out. */
  lemma RemoveDashesJoined(p1: string, p2: string, p3: string, p4: string, p5: string)
    requires '-' !in p1 && '-' !in p2 && '-' !in p3 && '-' !in p4 && '-' !in p5
    ensures RemoveDashes(p1 + "-" + p2 + "-" + p3 + "-" + p4 + "-" + p5) == p1 + p2 + p3 + p4 + p5
  {
    var x2 := p1 + "-" + p2;
    var x3 := x2 + "-" + p3;
    var x4 := x3 + "-" + p4;
    RemoveDashesAround(x4, p5);
    RemoveDashesAround(x3, p4);
    RemoveDashesAround(x2, p3);
    RemoveDashesAround(p1, p2);
    RemoveDashesNone(p1);
    RemoveDashesNone(p2);
    RemoveDashesNone(p3);
    RemoveDashesNone(p4);
    RemoveDashesNone(p5);
  }

  /** Removing the dashes from the dashed form of a dash-free text gives it back. */
  lemma RemoveDashesOfDashed(s: string)
    requires |s| == 32 && '-' !in s
    ensures RemoveDashes(Dashed(s)) == s
  {
    var p1, p2, p3, p4, p5 := s[..8], s[8..12], s[12..16], s[16..20], s[20..32];
    assert '-' !in p1 && '-' !in p2 && '-' !in p3 && '-' !in p4 && '-' !in p5;
    RemoveDashesJoined(p1, p2, p3, p4, p5);
    assert s == p1 + p2 + p3 + p4 + p5;
  }

  /** The message of the length check, as the source writes it. */
  function LengthMessage(s: string): string {
    "Unexpected length: " + IntToString(Utf16Length(s), 10) + " (should be 34)"
  }

  /** parseMojangUuid: a length check (in UTF-16 units), then UUID.fromString on
      the dashed text. Each of the five components is read by Long.parseLong
      in radix 16, which takes hex digits of either case and a leading '+'; a
      '-' in the text adds a fifth dash, which fromString rejects. */
  function ParseMojangUuid(s: string): (r: Result<Uuid>)
    ensures Utf16Length(s) != 32 <==> r == Err(IllegalState(LengthMessage(s)))
    ensures r.Ok? <==> |s| == 32 && forall i :: 0 <= i < 32 ==> UuidChar(s[i], i)
    ensures r.Ok? ==> forall i :: 0 <= i < 32 ==> r.value[i] == UuidDigit(s[i])
    ensures Utf16Length(s) == 32 && !r.Ok? ==> r == Err(InvalidUuid)
    ensures r.Ok? && (forall i :: 0 <= i < 32 ==> IsHex(s[i])) ==>
      forall i :: 0 <= i < 32 ==> r.value[i] == CharDigit(s[i]).value
  {
    UuidTextLength(s);
    if Utf16Length(s) != 32 then Err(IllegalState(LengthMessage(s)))
    else if |s| == 32 && forall i :: 0 <= i < 32 ==> UuidChar(s[i], i) then
      Ok(seq(32, i requires 0 <= i < 32 => UuidDigit(s[i])))
    else Err(InvalidUuid)
  }

  /** minifyUuid: the canonical text of the UUID without its dashes. */
  function MinifyUuid(u: Uuid): (r: string)
    ensures |r| == 32
    ensures forall i :: 0 <= i < 32 ==> IsLowerHex(r[i]) && CharDigit(r[i]) == Some(u[i])
  {
    var digits := seq(32, i requires 0 <= i < 32 => DigitChar(u[i]));
    forall i | 0 <= i < 32 ensures IsLowerHex(digits[i]) && CharDigit(digits[i]) == Some(u[i]) {
      DigitCharDigit(u[i]);
    }
    RemoveDashesOfDashed(digits);
    RemoveDashes(UuidToString(u))
  }

  /** Round trip from the wire: an undashed lowercase id survives parse then minify. */
  lemma MinifyParseMojangUuid(s: string)
    requires |s| == 32 && forall i :: 0 <= i < 32 ==> IsLowerHex(s[i])
    ensures ParseMojangUuid(s).Ok? && MinifyUuid(ParseMojangUuid(s).value) == s
  {
    assert Utf16Length(s) == 32 by { AllBmpLength(s); }
    assert forall i :: 0 <= i < 32 ==> IsHex(s[i]);
    var u := ParseMojangUuid(s).value;
    var m := MinifyUuid(u);
    forall i | 0 <= i < 32 ensures m[i] == s[i] {
      assert CharDigit(m[i]) == CharDigit(s[i]);
      LowerHexDigitUnique(m[i], s[i]);
    }
  }

  /** A component may open with a '+': "+0a1b2c3" reads as the component
      00a1b2c3, and a text with a '+' anywhere else is not a UUID. */
  lemma ParseMojangUuidSign(s: string, i: nat)
    requires |s| == 32 && i < 32 && s[i] == '+'
    requires forall j :: 0 <= j < 32 && j != i ==> IsHex(s[j])
    ensures ParseMojangUuid(s).Ok? <==> ComponentStart(i)
    ensures ParseMojangUuid(s).Ok? ==> ParseMojangUuid(s).value[i] == 0
  {
    UuidTextLength(s);
  }

  /** Round trip from the model: every UUID survives minify then parse. */
  lemma ParseMojangUuidMinify(u: Uuid)
    ensures ParseMojangUuid(MinifyUuid(u)) == Ok(u)
  {
    var m := MinifyUuid(u);
    assert Utf16Length(m) == 32 by { AllBmpLength(m); }
    assert forall i :: 0 <= i < 32 ==> IsHex(m[i]);
    assert ParseMojangUuid(m).value == u;
  }

  lemma {:induction false} AllBmpLength(s: string)
    requires forall i :: 0 <= i < |s| ==> s[i] as int < 0x1_0000
    ensures Utf16Length(s) == |s|
    decreases |s|
  {
    if s != "" { AllBmpLength(s[1..]); }
  }

  lemma HexLength(s: string)
    ensures (forall i :: 0 <= i < |s| ==> IsHex(s[i])) ==> Utf16Length(s) == |s|
  {
    if forall i :: 0 <= i < |s| ==> IsHex(s[i]) {
      AllBmpLength(s);
    }
  }

  lemma UuidTextLength(s: string)
    ensures (forall i :: 0 <= i < |s| ==> UuidChar(s[i], i)) ==> Utf16Length(s) == |s|
  {
    if forall i :: 0 <= i < |s| ==> UuidChar(s[i], i) {
      AllBmpLength(s);
    }
  }

  lemma LowerHexDigitUnique(a: char, b: char)
    requires IsLowerHex(a) && IsLowerHex(b) && CharDigit(a) == CharDigit(b)
    ensures a == b
  {
  }

  // ----- server hash -----

  /** One character as ISO-8859-1: itself below U+0100, otherwise the replacement byte '?'. */
  function Latin1(c: char): byte {
    if c as int < 0x100 then c as int else '?' as int
  }

  /** String.getBytes(ISO_8859_1): one byte per character. */
  function Latin1Bytes(s: string): (b: seq<byte>)
    ensures |b| == |s|
  {
    seq(|s|, i requires 0 <= i < |s| => Latin1(s[i]))
  }

  /** ISO-8859-1 decoding: one character per byte. */
  function Latin1Chars(b: seq<byte>): (s: string)
    ensures |s| == |b|
  {
    seq(|b|, i requires 0 <= i < |b| => b[i] as char)
  }

  /** A server id made of ISO-8859-1 characters is encoded without loss. */
  lemma Latin1RoundTrip(s: string)
    requires forall i :: 0 <= i < |s| ==> s[i] as int < 0x100
    ensures Latin1Chars(Latin1Bytes(s)) == s
  {
    assert forall i :: 0 <= i < |s| ==> Latin1Chars(Latin1Bytes(s))[i] == s[i];
  }

  /** The bytes fed to SHA-1, in the order calculateServerHash updates the digest. */
  function DigestInput(serverId: string, secretKey: seq<byte>, publicKey: seq<byte>): (m: seq<byte>)
    ensures |m| == |serverId| + |secretKey| + |publicKey|
    ensures m[..|serverId|] == Latin1Bytes(serverId)
    ensures m[|serverId|..|serverId| + |secretKey|] == secretKey
    ensures m[|serverId| + |secretKey|..] == publicKey
  {
    var m := Latin1Bytes(serverId) + secretKey + publicKey;
    assert m[|serverId|..|serverId| + |secretKey|] == secretKey;
    m
  }

  function Pow256(n: nat): (p: nat)
    ensures p >= 1
  {
    if n == 0 then 1 else 256 * Pow256(n - 1)
  }

  /** The bytes as an unsigned big-endian number. */
  function Unsigned(b: seq<byte>): nat
  {
    if b == [] then 0 else b[0] * Pow256(|b| - 1) + Unsigned(b[1..])
  }

  lemma {:induction false} UnsignedBound(b: seq<byte>)
    ensures Unsigned(b) < Pow256(|b|)
    decreases |b|
  {
    if b != [] {
      var p := Pow256(|b| - 1);
      UnsignedBound(b[1..]);
      var top: nat := b[0];
      assert top * p + p == (top + 1) * p;
      MulMono(top + 1, 256, p);
    }
  }

  lemma MulMono(a: int, b: int, c: nat)
    requires a <= b
    ensures a * c <= b * c
  {
  }

  /** new BigInteger(bytes): the bytes as a signed big-endian two's-complement number. */
  function Signed(b: seq<byte>): int
    requires |b| > 0
  {
    if b[0] >= 0x80 then Unsigned(b) - Pow256(|b|) else Unsigned(b)
  }

  /** BigInteger.toString(16) of the digest read as a signed number: the
      string calculateServerHash returns. */
  function HashText(digest: seq<byte>): string
    requires |digest| > 0
  {
    IntToString(Signed(digest), 16)
  }

  /** SHA-1 output: 20 bytes. */
  type Sha1Digest = d: seq<byte> | |d| == 20 witness seq(20, _ => 0)

  /** calculateServerHash with SHA-1 supplied by the caller. */
  function ServerHash(serverId: string, publicKey: seq<byte>, secretKey: seq<byte>,
                      sha1: seq<byte> -> Sha1Digest): (h: string)
    ensures ParseInt(h, 16) == Some(Signed(sha1(DigestInput(serverId, secretKey, publicKey))))
  {
    var digest := sha1(DigestInput(serverId, secretKey, publicKey));
    ParseIntToString(Signed(digest), 16);
    HashText(digest)
  }

  /** Shape of the rendered hash: a leading '-' exactly when the top bit of the
      first byte is set, then lowercase hexadecimal digits without a leading zero. */
  lemma HashTextShape(digest: seq<byte>)
    requires |digest| > 0
    ensures |HashText(digest)| > 0
    ensures HashText(digest)[0] == '-' <==> digest[0] >= 0x80
    ensures var digits := if digest[0] >= 0x80 then HashText(digest)[1..] else HashText(digest);
      |digits| > 0 && (forall k :: 0 <= k < |digits| ==> IsLowerDigit(digits[k], 16)) &&
      (digits[0] == '0' ==> digits == "0")
  {
    SignedNegative(digest);
    var v := Signed(digest);
    if v >= 0 {
      var s := NatToString(v, 16);
      assert HashText(digest) == s;
      assert IsLowerDigit(s[0], 16);
    } else {
      var s := NatToString(-v, 16);
      assert HashText(digest) == "-" + s;
      assert ("-" + s)[1..] == s;
    }
  }

  /** The digest reads as a negative number exactly when its top bit is set. */
  lemma SignedNegative(digest: seq<byte>)
    requires |digest| > 0
    ensures Signed(digest) < 0 <==> digest[0] >= 0x80
  {
    UnsignedBound(digest);
  }

  lemma {:induction false} UnsignedZero(b: seq<byte>)
    requires forall i :: 0 <= i < |b| ==> b[i] == 0
    ensures Unsigned(b) == 0
    decreases |b|
  {
    if b != [] { UnsignedZero(b[1..]); }
  }

  /** An all-zero digest renders as "0". */
  lemma HashTextZero(digest: seq<byte>)
    requires |digest| > 0 && forall i :: 0 <= i < |digest| ==> digest[i] == 0
    ensures HashText(digest) == "0"
  {
    UnsignedZero(digest);
  }

  /** Parsing the rendered hash as a signed hexadecimal number gives the
      two's-complement value of the digest. */
  lemma HashTextParses(digest: seq<byte>)
    requires |digest| > 0
    ensures ParseInt(HashText(digest), 16) == Some(Signed(digest))
  {
    ParseIntToString(Signed(digest), 16);
  }

  lemma {:induction false} UnsignedInjective(a: seq<byte>, b: seq<byte>)
    requires |a| == |b| && Unsigned(a) == Unsigned(b)
    ensures a == b
    decreases |a|
  {
    if a != [] {
      var p := Pow256(|a| - 1);
      UnsignedBound(a[1..]);
      UnsignedBound(b[1..]);
      HeadUnique(a[0], b[0], Unsigned(a[1..]), Unsigned(b[1..]), p);
      UnsignedInjective(a[1..], b[1..]);
      assert a == [a[0]] + a[1..];
      assert b == [b[0]] + b[1..];
    }
  }

  /** Big-endian digits are unique: the leading digit is fixed by the value. */
  lemma HeadUnique(x: nat, y: nat, rx: nat, ry: nat, p: nat)
    requires rx < p && ry < p && x * p + rx == y * p + ry
    ensures x == y
  {
    if x < y {
      assert (x + 1) * p == x * p + p;
      MulMono(x + 1, y, p);
    } else if y < x {
      assert (y + 1) * p == y * p + p;
      MulMono(y + 1, x, p);
    }
  }

  /** For digests of one length the rendering loses nothing: different digests
      give different hash strings. */
  lemma HashTextInjective(a: seq<byte>, b: seq<byte>)
    requires |a| == |b| > 0 && HashText(a) == HashText(b)
    ensures a == b
  {
    HashTextParses(a);
    HashTextParses(b);
    UnsignedBound(a);
    UnsignedBound(b);
    assert Signed(a) == Signed(b);
    assert (a[0] >= 0x80) == (b[0] >= 0x80);
    UnsignedInjective(a, b);
  }
}

=== FILE: base64.dfy ===
/** Base 64 with the URL and filename safe alphabet of RFC 4648 section 5:
    the decoder as java.util.Base64.getUrlDecoder() applies it (padding
    optional, but if present it must be complete; anything after the padding
    is an error; leftover bits are ignored), and the unpadded encoder JWTs are
    written with. */
module Base64Url {
  import opened Common

  /** The character of the alphabet that stands for the 6-bit value `v`. */
  function AlphabetChar(v: nat): char
    requires v < 64
  {
    if v < 26 then ('A' as int + v) as char
    else if v < 52 then ('a' as int + v - 26) as char
    else if v < 62 then ('0' as int + v - 52) as char
    else if v == 62 then '-'
    else '_'
  }

  /** The 6-bit value a character stands for, if it is in the alphabet. */
  function SextetOf(c: char): (v: Option<nat>)
    ensures v.Some? ==> v.value < 64 && AlphabetChar(v.value) == c
  {
    if 'A' <= c <= 'Z' then Some(c as int - 'A' as int)
    else if 'a' <= c <= 'z' then Some(c as int - 'a' as int + 26)
    else if '0' <= c <= '9' then Some(c as int - '0' as int + 52)
    else if c == '-' then Some(62)
    else if c == '_' then Some(63)
    else None
  }

  lemma SextetOfAlphabet(v: nat)
    requires v < 64
    ensures SextetOf(AlphabetChar(v)) == Some(v)
  {
  }

  predicate InAlphabet(c: char) {
    SextetOf(c).Some?
  }

  function Value(c: char): nat
    requires InAlphabet(c)
  {
    SextetOf(c).value
  }

  function Byte1(a: nat, b: nat): byte
    requires a < 64 && b < 64
  {
    a * 4 + b / 16
  }

  function Byte2(b: nat, c: nat): byte
    requires b < 64 && c < 64
  {
    (b % 16) * 16 + c / 4
  }

  function Byte3(c: nat, d: nat): byte
    requires c < 64 && d < 64
  {
    (c % 4) * 64 + d
  }

  /** Number of leading alphabet characters of `s`, at most three. */
  function LeadingSextets(s: string): (n: nat)
    ensures n <= 3 && n <= |s|
    ensures forall k :: 0 <= k < n ==> InAlphabet(s[k])
    ensures n < 3 && n < |s| ==> !InAlphabet(s[n])
  {
    if |s| > 0 && InAlphabet(s[0]) then
      if |s| > 1 && InAlphabet(s[1]) then
        if |s| > 2 && InAlphabet(s[2]) then 3 else 2
      else 1
    else 0
  }

  /** The last unit: fewer than four alphabet characters, possibly padded. */
  function DecodeFinal(s: string): (r: Option<seq<byte>>)
  {
    var n := LeadingSextets(s);
    if n == |s| then
      if n == 0 then Some([])
      else if n == 1 then None  // a dangling single character
      else if n == 2 then Some([Byte1(Value(s[0]), Value(s[1]))])
      else Some([Byte1(Value(s[0]), Value(s[1])), Byte2(Value(s[1]), Value(s[2]))])
    else if s[n] != '=' then None  // an illegal character
    else if n == 2 && |s| == 4 && s[3] == '=' then Some([Byte1(Value(s[0]), Value(s[1]))])
    else if n == 3 && |s| == 4 then
      Some([Byte1(Value(s[0]), Value(s[1])), Byte2(Value(s[1]), Value(s[2]))])
    else None  // padding too early, too short, or followed by more text
  }

  predicate FullUnit(s: string) {
    |s| >= 4 && InAlphabet(s[0]) && InAlphabet(s[1]) && InAlphabet(s[2]) && InAlphabet(s[3])
  }

  /** Base64.getUrlDecoder().decode: None where the decoder throws. */
  function Decode(s: string): (r: Option<seq<byte>>)
    decreases |s|
  {
    if FullUnit(s) then
      var a, b, c, d := Value(s[0]), Value(s[1]), Value(s[2]), Value(s[3]);
      match Decode(s[4..])
      case None => None
      case Some(rest) => Some([Byte1(a, b), Byte2(b, c), Byte3(c, d)] + rest)
    else DecodeFinal(s)
  }

  /** Three bytes as four characters. */
  function EncodeUnit(x: byte, y: byte, z: byte): (s: string)
    ensures |s| == 4 && FullUnit(s)
  {
    SextetOfAlphabet(x / 4);
    SextetOfAlphabet((x % 4) * 16 + y / 16);
    SextetOfAlphabet((y % 16) * 4 + z / 64);
    SextetOfAlphabet(z % 64);
    [AlphabetChar(x / 4), AlphabetChar((x % 4) * 16 + y / 16),
     AlphabetChar((y % 16) * 4 + z / 64), AlphabetChar(z % 64)]
  }

  /** Two trailing bytes as three characters (the unused bits zero). */
  function EncodeTwo(x: byte, y: byte): (s: string)
    ensures |s| == 3 && InAlphabet(s[0]) && InAlphabet(s[1]) && InAlphabet(s[2])
  {
    SextetOfAlphabet(x / 4);
    SextetOfAlphabet((x % 4) * 16 + y / 16);
    SextetOfAlphabet((y % 16) * 4);
    [AlphabetChar(x / 4), AlphabetChar((x % 4) * 16 + y / 16), AlphabetChar((y % 16) * 4)]
  }

  /** One trailing byte as two characters (the unused bits zero). */
  function EncodeOne(x: byte): (s: string)
    ensures |s| == 2 && InAlphabet(s[0]) && InAlphabet(s[1])
  {
    SextetOfAlphabet(x / 4);
    SextetOfAlphabet((x % 4) * 16);
    [AlphabetChar(x / 4), AlphabetChar((x % 4) * 16)]
  }

  /** The four characters of a unit carry its three bytes back. */
  lemma EncodeUnitBytes(x: byte, y: byte, z: byte)
    ensures var s := EncodeUnit(x, y, z);
      Byte1(Value(s[0]), Value(s[1])) == x &&
      Byte2(Value(s[1]), Value(s[2])) == y &&
      Byte3(Value(s[2]), Value(s[3])) == z
  {
    SextetOfAlphabet(x / 4);
    SextetOfAlphabet((x % 4) * 16 + y / 16);
    SextetOfAlphabet((y % 16) * 4 + z / 64);
    SextetOfAlphabet(z % 64);
  }

  lemma EncodeTwoBytes(x: byte, y: byte)
    ensures var s := EncodeTwo(x, y);
      Byte1(Value(s[0]), Value(s[1])) == x && Byte2(Value(s[1]), Value(s[2])) == y
  {
    SextetOfAlphabet(x / 4);
    SextetOfAlphabet((x % 4) * 16 + y / 16);
    SextetOfAlphabet((y % 16) * 4);
  }

  lemma EncodeOneBytes(x: byte)
    ensures var s := EncodeOne(x); Byte1(Value(s[0]), Value(s[1])) == x
  {
    SextetOfAlphabet(x / 4);
    SextetOfAlphabet((x % 4) * 16);
  }

  /** RFC 4648 section 5 encoding without padding. */
  function Encode(b: seq<byte>): (s: string)
    decreases |b|
  {
    if |b| == 0 then ""
    else if |b| == 1 then EncodeOne(b[0])
    else if |b| == 2 then EncodeTwo(b[0], b[1])
    else EncodeUnit(b[0], b[1], b[2]) + Encode(b[3..])
  }

  lemma DecodeOne(x: byte)
    ensures Decode(EncodeOne(x)) == Some([x])
  {
    var s := EncodeOne(x);
    EncodeOneBytes(x);
    assert !FullUnit(s) && LeadingSextets(s) == 2;
  }

  lemma DecodeTwo(x: byte, y: byte)
    ensures Decode(EncodeTwo(x, y)) == Some([x, y])
  {
    var s := EncodeTwo(x, y);
    EncodeTwoBytes(x, y);
    assert !FullUnit(s) && LeadingSextets(s) == 3;
  }

  lemma DecodeOnePadded(x: byte)
    ensures Decode(EncodeOne(x) + "==") == Some([x])
  {
    var t := EncodeOne(x);
    EncodeOneBytes(x);
    var s := t + "==";
    assert s[0] == t[0] && s[1] == t[1] && s[2] == '=' && s[3] == '=';
    assert !FullUnit(s) && LeadingSextets(s) == 2;
  }

  lemma DecodeTwoPadded(x: byte, y: byte)
    ensures Decode(EncodeTwo(x, y) + "=") == Some([x, y])
  {
    var t := EncodeTwo(x, y);
    EncodeTwoBytes(x, y);
    var s := t + "=";
    assert s[0] == t[0] && s[1] == t[1] && s[2] == t[2] && s[3] == '=';
    assert !FullUnit(s) && LeadingSextets(s) == 3;
  }

  /** A full unit in front decodes to its three bytes ahead of the rest. */
  lemma DecodeUnit(x: byte, y: byte, z: byte, rest: string)
    ensures Decode(EncodeUnit(x, y, z) + rest) ==
      match Decode(rest)
      case None => None
      case Some(r) => Some([x, y, z] + r)
  {
    var u := EncodeUnit(x, y, z);
    EncodeUnitBytes(x, y, z);
    var s := u + rest;
    assert s[..4] == u && s[4..] == rest;
    assert s[0] == u[0] && s[1] == u[1] && s[2] == u[2] && s[3] == u[3];
    assert FullUnit(s);
  }

  /** The encoder writes only characters of the alphabet. */
  lemma {:induction false} EncodeInAlphabet(b: seq<byte>)
    ensures forall k :: 0 <= k < |Encode(b)| ==> InAlphabet(Encode(b)[k])
    decreases |b|
  {
    if |b| >= 3 {
      EncodeInAlphabet(b[3..]);
      var u := EncodeUnit(b[0], b[1], b[2]);
      var t := Encode(b[3..]);
      assert Encode(b) == u + t;
      forall k | 0 <= k < |Encode(b)|
        ensures InAlphabet(Encode(b)[k])
      {
        if k >= 4 {
          assert Encode(b)[k] == t[k - 4];
        }
      }
    }
  }

  /** The short encodings, of fewer than three bytes. */
  lemma DecodeEncodeShort(b: seq<byte>)
    requires |b| < 3
    ensures Decode(Encode(b)) == Some(b)
  {
    if |b| == 1 {
      DecodeOne(b[0]);
      assert b == [b[0]];
    } else if |b| == 2 {
      DecodeTwo(b[0], b[1]);
      assert b == [b[0], b[1]];
    }
  }

  /** One full unit more in front of an encoding the decoder recovers. */
  lemma DecodeEncodeStep(b: seq<byte>)
    requires |b| >= 3 && Decode(Encode(b[3..])) == Some(b[3..])
    ensures Decode(Encode(b)) == Some(b)
  {
    EncodeCons(b);
    DecodeUnitSome(b[0], b[1], b[2], Encode(b[3..]), b[3..]);
    SplitThree(b);
  }

  lemma SplitThree(b: seq<byte>)
    requires |b| >= 3
    ensures b == [b[0], b[1], b[2]] + b[3..]
  {
  }

  /** The encoding of three bytes or more starts with a full unit. */
  lemma EncodeCons(b: seq<byte>)
    requires |b| >= 3
    ensures Encode(b) == EncodeUnit(b[0], b[1], b[2]) + Encode(b[3..])
  {
  }

  /** DecodeUnit for a rest that decodes. */
  lemma DecodeUnitSome(x: byte, y: byte, z: byte, t: string, r: seq<byte>)
    requires Decode(t) == Some(r)
    ensures Decode(EncodeUnit(x, y, z) + t) == Some([x, y, z] + r)
  {
    DecodeUnit(x, y, z, t);
  }

  /** The decoder recovers every unpadded encoding. */
  lemma {:induction false} DecodeEncode(b: seq<byte>)
    ensures Decode(Encode(b)) == Some(b)
    decreases |b|
  {
    if |b| < 3 {
      DecodeEncodeShort(b);
    } else {
      DecodeEncode(b[3..]);
      DecodeEncodeStep(b);
    }
  }

  /** RFC 4648 section 5 encoding with '=' padding to a multiple of four. */
  function EncodePadded(b: seq<byte>): string
  {
    var s := Encode(b);
    if |b| % 3 == 1 then s + "==" else if |b| % 3 == 2 then s + "=" else s
  }

  lemma EncodePaddedUnit(b: seq<byte>)
    requires |b| >= 3
    ensures EncodePadded(b) == EncodeUnit(b[0], b[1], b[2]) + EncodePadded(b[3..])
  {
    var u := EncodeUnit(b[0], b[1], b[2]);
    var t := Encode(b[3..]);
    assert Encode(b) == u + t;
    assert |b[3..]| % 3 == |b| % 3;
    if |b| % 3 == 1 {
      assert u + t + "==" == u + (t + "==");
    } else if |b| % 3 == 2 {
      assert u + t + "=" == u + (t + "=");
    }
  }

  lemma DecodeEncodePaddedShort(b: seq<byte>)
    requires |b| < 3
    ensures Decode(EncodePadded(b)) == Some(b)
  {
    if |b| == 1 {
      DecodeOnePadded(b[0]);
      assert b == [b[0]];
    } else if |b| == 2 {
      DecodeTwoPadded(b[0], b[1]);
      assert b == [b[0], b[1]];
    }
  }

  lemma DecodeEncodePaddedStep(b: seq<byte>)
    requires |b| >= 3 && Decode(EncodePadded(b[3..])) == Some(b[3..])
    ensures Decode(EncodePadded(b)) == Some(b)
  {
    EncodePaddedUnit(b);
    DecodeUnitSome(b[0], b[1], b[2], EncodePadded(b[3..]), b[3..]);
    SplitThree(b);
  }

  /** The decoder also accepts the padded form. */
  lemma {:induction false} DecodeEncodePadded(b: seq<byte>)
    ensures Decode(EncodePadded(b)) == Some(b)
    decreases |b|
  {
    if |b| < 3 {
      DecodeEncodePaddedShort(b);
    } else {
      DecodeEncodePadded(b[3..]);
      DecodeEncodePaddedStep(b);
    }
  }

  // ----- what the decoder accepts and rejects -----

  /** Bytes carried by `n` alphabet characters: three per full unit, and one
      fewer than the characters of a shorter final unit. */
  function DecodedLength(n: nat): nat {
    3 * (n / 4) + (if n % 4 == 0 then 0 else n % 4 - 1)
  }

  /** A full unit in front: the text decodes exactly when the rest does, to
      three bytes more. */
  lemma DecodeFullUnit(s: string)
    requires FullUnit(s)
    ensures Decode(s).Some? <==> Decode(s[4..]).Some?
    ensures Decode(s).Some? ==> |Decode(s).value| == 3 + |Decode(s[4..]).value|
  {
  }

  /** Text made only of alphabet characters decodes exactly when it does not
      end in a single dangling character, and then to DecodedLength bytes. */
  lemma {:induction false} DecodeAlphabetOnly(s: string)
    requires forall k :: 0 <= k < |s| ==> InAlphabet(s[k])
    ensures Decode(s).Some? <==> |s| % 4 != 1
    ensures Decode(s).Some? ==> |Decode(s).value| == DecodedLength(|s|)
    decreases |s|
  {
    if FullUnit(s) {
      DecodeAlphabetOnly(s[4..]);
      DecodeFullUnit(s);
      assert DecodedLength(|s|) == 3 + DecodedLength(|s| - 4);
    } else {
      assert |s| < 4 && LeadingSextets(s) == |s|;
    }
  }

  /** A character that is neither in the alphabet nor '=' anywhere in the
      text makes the decoder throw. */
  lemma {:induction false} DecodeRejectsForeign(s: string, k: nat)
    requires k < |s| && !InAlphabet(s[k]) && s[k] != '='
    ensures Decode(s) == None
    decreases |s|
  {
    if FullUnit(s) {
      DecodeRejectsForeign(s[4..], k - 4);
      DecodeFullUnit(s);
    }
  }

  /** Where the first character outside the alphabet is '=', the padding must
      close the last unit: the decoder accepts the text exactly when the '='
      is the fourth character of that unit and ends the text, or the third
      and followed by one more '=' that ends it. Padding in a unit's first
      two places, a single '=' after two characters, and any text after the
      padding are all rejected. */
  lemma {:induction false} DecodePadded(s: string, k: nat)
    requires k < |s| && s[k] == '='
    requires forall j :: 0 <= j < k ==> InAlphabet(s[j])
    ensures Decode(s).Some? <==>
      (k % 4 == 3 && |s| == k + 1) || (k % 4 == 2 && |s| == k + 2 && s[k + 1] == '=')
    decreases |s|
  {
    if FullUnit(s) {
      var rest := s[4..];
      assert forall j :: 0 <= j < k - 4 ==> rest[j] == s[j + 4];
      DecodePadded(rest, k - 4);
      DecodeFullUnit(s);
      assert k + 1 < |s| ==> rest[k - 3] == s[k + 1];
    } else {
      DecodePaddedFinal(s, k);
    }
  }

  /** DecodePadded for a '=' inside the first four characters. */
  lemma DecodePaddedFinal(s: string, k: nat)
    requires k < |s| && s[k] == '=' && !FullUnit(s)
    requires forall j :: 0 <= j < k ==> InAlphabet(s[j])
    ensures Decode(s).Some? <==>
      (k % 4 == 3 && |s| == k + 1) || (k % 4 == 2 && |s| == k + 2 && s[k + 1] == '=')
  {
    assert k < 4;
    assert LeadingSextets(s) == k;
    assert Decode(s) == DecodeFinal(s);
  }
}

=== FILE: common.dfy ===
/** Shared value types: results, the exceptions the library raises, parsed
    replies, and Java's fixed-width integers. */
module Common {

  datatype Option<+T> = None | Some(value: T)

  /** The exceptions the library lets escape to its callers. */
  datatype Failure =
    | AuthenticationFailure(message: string)  // AuthenticationException
    | IllegalState(message: string)           // IllegalStateException
    | NullArgument(message: string)           // Objects.requireNonNull on a null argument
    | NullDereference                         // an implicit NullPointerException
    | IndexOutOfBounds                        // an index past the end of an array or list
    | InvalidUuid                             // UUID.fromString rejecting its text (IllegalArgumentException)
    | IllegalBase64                           // Base64.Decoder on malformed input
    | DateTimeParse                           // Instant.parse rejecting its text (DateTimeParseException),
                                              // or toEpochMilli overflowing a long (ArithmeticException)

  datatype Result<+T> = Ok(value: T) | Err(failure: Failure)

  /** What one network exchange yields: the already-parsed response body, or a
      failure of the transport or of the JSON parser (IOException,
      InterruptedException, JsonParserException). */
  datatype Reply<+T> = Received(body: T) | Failed

  type byte = x: int | 0 <= x < 0x100

  /** Java `int` and `long`. */
  type int32 = x: int | -0x8000_0000 <= x < 0x8000_0000
  type int64 = x: int | -0x8000_0000_0000_0000 <= x < 0x8000_0000_0000_0000

  /** Java `int` arithmetic and narrowing: the value wrapped to 32-bit two's complement. */
  function WrapInt(x: int): (r: int32)
    ensures (x - r) % 0x1_0000_0000 == 0
    ensures -0x8000_0000 <= x < 0x8000_0000 ==> r == x
  {
    var m := x % 0x1_0000_0000;
    if m < 0x8000_0000 then m else m - 0x1_0000_0000
  }

  /** A Java string reference that may be null. */
  type Nullable = Option<string>

  /** How string concatenation renders a possibly-null string (String.valueOf). */
  function Show(s: Nullable): (r: string)
    ensures s.Some? ==> r == s.value
    ensures s.None? ==> r == "null"
  {
    match s
    case Some(v) => v
    case None => "null"
  }

  /** Java `long` arithmetic: the mathematical value wrapped to 64-bit two's complement. */
  function WrapLong(x: int): (r: int64)
    ensures (x - r) % 0x1_0000_0000_0000_0000 == 0
    ensures -0x8000_0000_0000_0000 <= x < 0x8000_0000_0000_0000 ==> r == x
  {
    var m := x % 0x1_0000_0000_0000_0000;
    if m < 0x8000_0000_0000_0000 then m else m - 0x1_0000_0000_0000_0000
  }
}

=== FILE: form_body.dfy ===
/** FormBody: a mutable map from keys to values that serialises itself as an
    application/x-www-form-urlencoded request body. The map is a HashMap, so
    the order of the pairs is whatever its iteration order is; the model
    admits every order. */
module Forms {
  import opened Common
  import opened Text
  import opened UrlEncoding

  /** One `key=value` pair of the body. */
  function Pair(key: string, value: string): (p: string)
    ensures '=' in p && '&' !in p
  {
    UrlEncodeChars(key);
    UrlEncodeChars(value);
    assert (UrlEncode(key) + "=" + UrlEncode(value))[|UrlEncode(key)|] == '=';
    UrlEncode(key) + "=" + UrlEncode(value)
  }

  /** Every key in `order` is present with a non-null value. */
  predicate Serialisable(values: map<string, Nullable>, order: seq<string>) {
    forall i :: 0 <= i < |order| ==> order[i] in values && values[order[i]].Some?
  }

  /** `order` lists every key of `values` exactly once. */
  ghost predicate IsKeyOrder(order: seq<string>, values: map<string, Nullable>) {
    (forall i, j :: 0 <= i < j < |order| ==> order[i] != order[j]) &&
    (forall k :: k in values <==> k in order)
  }

  /** The pairs for the keys in `order`, in that order. */
  function Pairs(values: map<string, Nullable>, order: seq<string>): (ps: seq<string>)
    requires Serialisable(values, order)
    ensures |ps| == |order|
    ensures forall i :: 0 <= i < |ps| ==> ps[i] == Pair(order[i], values[order[i]].value)
  {
    if |order| == 0 then []
    else Pairs(values, order[..|order| - 1]) + [Pair(order[|order| - 1], values[order[|order| - 1]].value)]
  }

  /** Visiting one more key appends its pair. */
  lemma PairsSnoc(values: map<string, Nullable>, order: seq<string>, k: string)
    requires Serialisable(values, order) && k in values && values[k].Some?
    ensures Serialisable(values, order + [k])
    ensures Pairs(values, order + [k]) == Pairs(values, order) + [Pair(k, values[k].value)]
  {
    assert (order + [k])[..|order|] == order;
  }

  /** A complete key order over entries that are all non-null. */
  lemma KeyOrderComplete(values: map<string, Nullable>, order: seq<string>)
    requires forall k :: k in values <==> k in order
    requires forall i, j :: 0 <= i < j < |order| ==> order[i] != order[j]
    requires Serialisable(values, order)
    ensures IsKeyOrder(order, values)
    ensures forall k :: k in values ==> values[k].Some?
  {
    forall k | k in values ensures values[k].Some? {
      var i :| 0 <= i < |order| && order[i] == k;
    }
  }

  /** The body text when the entries are visited in `order`. */
  function Serialise(values: map<string, Nullable>, order: seq<string>): string
    requires Serialisable(values, order)
  {
    Join(Pairs(values, order), '&')
  }

  // ----- reading a body back -----

  /** The key and value of one `key=value` piece, split at its first '='. */
  function DecodePiece(p: string): Option<(string, string)>
  {
    if '=' !in p then None
    else
      var i := IndexOf(p, '=');
      match (UrlDecode(p[..i]), UrlDecode(p[i + 1..]))
      case (Some(k), Some(v)) => Some((k, v))
      case _ => None
  }

  /** The map the pieces stand for, a later piece overriding an earlier one. */
  function DecodePieces(ps: seq<string>): Option<map<string, string>>
  {
    if |ps| == 0 then Some(map[])
    else match (DecodePieces(ps[..|ps| - 1]), DecodePiece(ps[|ps| - 1]))
      case (Some(m), Some((k, v))) => Some(m[k := v])
      case _ => None
  }

  /** How a form parser reads an application/x-www-form-urlencoded body. */
  function FormDecode(s: string): Option<map<string, string>>
  {
    if s == "" then Some(map[]) else DecodePieces(SplitAll(s, '&'))
  }

  /** The entries of `values` for the keys in `order`, as plain strings. */
  function Collected(values: map<string, Nullable>, order: seq<string>): (m: map<string, string>)
    requires Serialisable(values, order)
    ensures forall k :: k in m <==> k in order
    ensures forall k :: k in m ==> k in values && values[k] == Some(m[k])
  {
    if |order| == 0 then map[]
    else
      var last := order[|order| - 1];
      Collected(values, order[..|order| - 1])[last := values[last].value]
  }

  lemma DecodePiecePair(key: string, value: string)
    ensures DecodePiece(Pair(key, value)) == Some((key, value))
  {
    var ek, ev := UrlEncode(key), UrlEncode(value);
    var p := Pair(key, value);
    UrlEncodeChars(key);
    assert p[|ek|] == '=';
    var i := IndexOf(p, '=');
    assert p[..i] == ek && p[i + 1..] == ev;
    UrlDecodeEncode(key);
    UrlDecodeEncode(value);
  }

  lemma {:induction false} DecodePairs(values: map<string, Nullable>, order: seq<string>)
    requires Serialisable(values, order)
    ensures DecodePieces(Pairs(values, order)) == Some(Collected(values, order))
  {
    if |order| > 0 {
      var n := |order| - 1;
      var ps := Pairs(values, order);
      assert ps[..n] == Pairs(values, order[..n]);
      DecodePairs(values, order[..n]);
      DecodePiecePair(order[n], values[order[n]].value);
    }
  }

  /** With every key listed, the collected entries are the whole map. */
  lemma CollectedAll(values: map<string, Nullable>, order: seq<string>)
    requires IsKeyOrder(order, values) && Serialisable(values, order)
    ensures forall k :: k in values ==> values[k].Some?
    ensures Collected(values, order) == map k | k in values :: values[k].value
  {
    var m := Collected(values, order);
    forall k | k in values ensures values[k].Some? {
      assert k in m;
    }
  }

  /** Reading a serialised body gives back exactly the entries of the map: one
      pair per key, each with its value, whatever the order of the keys. The
      body is empty exactly when the map is, and otherwise it neither starts nor
      ends with '&'. */
  lemma FormDecodeSerialise(values: map<string, Nullable>, order: seq<string>)
    requires IsKeyOrder(order, values) && Serialisable(values, order)
    ensures forall k :: k in values ==> values[k].Some?
    ensures FormDecode(Serialise(values, order)) == Some(map k | k in values :: values[k].value)
    ensures Serialise(values, order) == "" <==> values == map[]
    ensures Serialise(values, order) != "" ==>
      Serialise(values, order)[0] != '&' && Serialise(values, order)[|Serialise(values, order)| - 1] != '&'
  {
    CollectedAll(values, order);
    if |order| == 0 {
      assert values == map[];
    } else {
      assert order[0] in values;
      SerialiseNonEmpty(values, order);
    }
  }

  /** A body with at least one pair splits back into its pairs at '&'. */
  lemma SerialiseNonEmpty(values: map<string, Nullable>, order: seq<string>)
    requires Serialisable(values, order) && |order| > 0
    ensures FormDecode(Serialise(values, order)) == Some(Collected(values, order))
    ensures Serialise(values, order) != ""
    ensures Serialise(values, order)[0] != '&' && Serialise(values, order)[|Serialise(values, order)| - 1] != '&'
  {
    var ps := Pairs(values, order);
    DecodePairs(values, order);
    SplitJoin(ps, '&');
    JoinEnds(ps, '&');
  }

  /** Joining non-empty pieces that do not hold the separator neither starts
      nor ends with it. */
  lemma {:induction false} JoinEnds(ps: seq<string>, sep: char)
    requires |ps| >= 1
    requires forall i :: 0 <= i < |ps| ==> ps[i] != "" && sep !in ps[i]
    ensures Join(ps, sep) != ""
    ensures Join(ps, sep)[0] == ps[0][0]
    ensures Join(ps, sep)[|Join(ps, sep)| - 1] == ps[|ps| - 1][|ps[|ps| - 1]| - 1]
  {
    if |ps| > 1 {
      JoinEnds(ps[1..], sep);
    }
  }

  class FormBody {
    var values: map<string, Nullable>

    constructor()
      ensures values == map[]
    {
      values := map[];
    }

    /** add: the key now maps to the value (replacing an earlier one), every
        other key is untouched, and the same body is returned for chaining. */
    method Add(key: string, value: Nullable) returns (self: FormBody)
      modifies this
      ensures self == this
      ensures values == old(values)[key := value]
      ensures forall k :: k != key ==> (k in values <==> k in old(values))
      ensures forall k :: k != key && k in values ==> values[k] == old(values)[k]
    {
      values := values[key := value];
      self := this;
    }

    /** asRequestString: the pairs of all entries joined by '&', in some order
        of the keys; a null value makes URLEncoder throw. The map is not changed. */
    method AsRequestString() returns (r: Result<string>)
      ensures r.Err? <==> exists k :: k in values && values[k].None?
      ensures r.Err? ==> r.failure == NullDereference
      ensures r.Ok? ==> exists order :: IsKeyOrder(order, values) && Serialisable(values, order)
                          && r.value == Serialise(values, order)
    {
      var rest := values.Keys;
      var pairs: seq<string> := [];
      ghost var order: seq<string> := [];
      while rest != {}
        invariant forall k :: k in values <==> (k in rest || k in order)
        invariant forall k :: k in rest ==> k !in order && k in values
        invariant forall i, j :: 0 <= i < j < |order| ==> order[i] != order[j]
        invariant Serialisable(values, order)
        invariant pairs == Pairs(values, order)
        decreases rest
      {
        var k :| k in rest;
        match values[k]
        case None =>
          return Err(NullDereference);
        case Some(v) =>
          PairsSnoc(values, order, k);
          pairs := pairs + [Pair(k, v)];
          order := order + [k];
          rest := rest - {k};
      }
      KeyOrderComplete(values, order);
      r := Ok(Join(pairs, '&'));
    }
  }
}

=== FILE: json.dfy ===
/** JSON values as the nanojson library holds them after parsing, and the
    lenient accessors of its JsonObject and JsonArray: a missing or mistyped
    string is null, a missing number is 0, a missing object or array is an
    empty one. Parsing and writing JSON text are not part of this model. */
module Json {
  import opened Common

  datatype Json =
    | JNull
    | JBool(b: bool)
    | JNumber(n: int)
    | JString(s: string)
    | JArray(items: seq<Json>)
    | JObject(fields: map<string, Json>)

  type JsonObject = map<string, Json>

  /** JsonObject.has: the key is present, whatever its value. */
  predicate Has(o: JsonObject, key: string) {
    key in o
  }

  /** JsonObject.getString: the string under `key`, null when absent or not a string. */
  function GetString(o: JsonObject, key: string): (r: Nullable)
    ensures r.Some? <==> key in o && o[key].JString?
    ensures r.Some? ==> o[key] == JString(r.value)
  {
    if key in o && o[key].JString? then Some(o[key].s) else None
  }

  /** JsonObject.getInt: Number.intValue of the number under `key`, 0 when absent. */
  function GetInt(o: JsonObject, key: string): (r: int32)
    ensures key in o && o[key].JNumber? && -0x8000_0000 <= o[key].n < 0x8000_0000 ==> r == o[key].n
    ensures key in o && o[key].JNumber? ==> r == WrapInt(o[key].n)
    ensures !(key in o && o[key].JNumber?) ==> r == 0
  {
    if key in o && o[key].JNumber? then WrapInt(o[key].n) else 0
  }

  /** JsonObject.getLong: Number.longValue of the number under `key`, 0 when absent. */
  function GetLong(o: JsonObject, key: string): (r: int64)
    ensures key in o && o[key].JNumber? && -0x8000_0000_0000_0000 <= o[key].n < 0x8000_0000_0000_0000
      ==> r == o[key].n
    ensures key in o && o[key].JNumber? ==> r == WrapLong(o[key].n)
    ensures !(key in o && o[key].JNumber?) ==> r == 0
  {
    if key in o && o[key].JNumber? then WrapLong(o[key].n) else 0
  }

  /** JsonObject.getObject: the object under `key`, an empty one when absent. */
  function GetObject(o: JsonObject, key: string): (r: JsonObject)
    ensures key in o && o[key].JObject? ==> r == o[key].fields
    ensures !(key in o && o[key].JObject?) ==> r == map[]
  {
    if key in o && o[key].JObject? then o[key].fields else map[]
  }

  /** JsonObject.getArray: the array under `key`, an empty one when absent. */
  function GetArray(o: JsonObject, key: string): (r: seq<Json>)
    ensures key in o && o[key].JArray? ==> r == o[key].items
    ensures !(key in o && o[key].JArray?) ==> r == []
  {
    if key in o && o[key].JArray? then o[key].items else []
  }

  /** JsonArray.getObject: the object at `index`, an empty one when that
      element is not an object or when the index is past the end (nanojson's
      JsonArray.get answers null there instead of throwing). */
  function ObjectAt(a: seq<Json>, index: nat): (r: JsonObject)
    ensures index < |a| && a[index].JObject? ==> r == a[index].fields
    ensures !(index < |a| && a[index].JObject?) ==> r == map[]
  {
    if index < |a| && a[index].JObject? then a[index].fields else map[]
  }

  /** The JSON value JsonWriter writes for a possibly-null string. */
  function StringValue(s: Nullable): (j: Json)
    ensures s.Some? ==> j == JString(s.value)
    ensures s.None? ==> j == JNull
  {
    if s.Some? then JString(s.value) else JNull
  }

  /** An HTTP request whose body, when there is one, is a JSON document. */
  datatype JsonRequest = JsonRequest(uri: string, headers: map<string, string>, body: Option<Json>)
}

=== FILE: microsoft.dfy ===
/** MicrosoftAuthenticator: the OAuth 2.0 device authorization grant of
    RFC 8628 against the Microsoft identity platform, and the refresh of
    section 6 of RFC 6749. Each exchange is a form body posted to an endpoint;
    the transport is the parameter `send`, which maps a request to the parsed
    JSON reply or to a failure of the exchange, and the clock is `now`. */
module MicrosoftAuthenticator {
  import opened Common
  import opened Text
  import opened Json
  import opened Tokens
  import opened Forms

  const DeviceCodeUri := "https://login.microsoftonline.com/consumers/oauth2/v2.0/devicecode"
  const TokenUri := "https://login.microsoftonline.com/consumers/oauth2/v2.0/token"

  const DefaultScope := "XboxLive.signin offline_access"
  const DefaultGrantType := "urn:ietf:params:oauth:grant-type:device_code"

  const ErrorPrefix := "Request returned error response: "
  const DeviceCodeFailed := "Device code request failed"
  const PollingFailed := "Device code polling request failed"
  const RefreshFailed := "Failed to send refresh request to Microsoft"

  /** A java.net.http.HttpClient: the one HttpClient.newHttpClient() makes, or
      one the caller supplied. */
  datatype HttpClient = NewHttpClient | SuppliedClient(id: nat)

  datatype Authenticator = Authenticator(httpClient: HttpClient, clientId: string, scope: string, grantType: string)

  /** A POST of a form body to an endpoint. */
  datatype FormRequest = FormRequest(uri: string, body: string)

  datatype DeviceCode = DeviceCode(userCode: Nullable, deviceCode: Nullable, verificationUri: Nullable,
                                   expiryTime: int64, checkInterval: int32)
  {
    /** expired with the clock reading `now`. */
    predicate Expired(now: int64) {
      now > expiryTime
    }
  }

  datatype PollingState = Pending | Accepted | Declined | Expired

  datatype PollingResult = PollingResult(state: PollingState, token: Option<MicrosoftToken>)

  /** getError: the exception an error reply turns into. The description's
      first line is taken with split("\n")[0], which throws on a null
      description and on one made of newlines only (the split is then empty). */
  function GetError(json: JsonObject): (f: Failure)
    ensures GetString(json, "error_description").None? ==> f == NullDereference
    ensures GetString(json, "error_description").Some? ==>
      var d := GetString(json, "error_description").value;
      if d != "" && AllOf(d, '\n') then f == IndexOutOfBounds
      else f == AuthenticationFailure(ErrorPrefix + Show(GetString(json, "error")) + " ("
                                      + Trim(BeforeFirst(d, '\n')) + ")")
  {
    match GetString(json, "error_description")
    case None => NullDereference
    case Some(d) =>
      var lines := JavaSplit(d, '\n');
      JavaSplitFirst(d, '\n');
      if |lines| == 0 then IndexOutOfBounds
      else AuthenticationFailure(ErrorPrefix + Show(GetString(json, "error")) + " (" + Trim(lines[0]) + ")")
  }

  /** The text in parentheses is one line with no surrounding blanks, and the
      lines after the first never show up in it. */
  lemma GetErrorFirstLine(json: JsonObject, line: string, more: string)
    requires GetString(json, "error_description") == Some(line + "\n" + more)
    requires '\n' !in line && line != ""
    ensures GetError(json) == AuthenticationFailure(ErrorPrefix + Show(GetString(json, "error")) + " ("
                                                    + Trim(line) + ")")
    ensures '\n' !in Trim(line)
  {
    var d := line + "\n" + more;
    assert d[0] == line[0];
    BeforeFirstLine(line, '\n', more);
    TrimWithout(line, '\n');
  }

  /** tokenFromJson: the access token, the refresh token, and the expiry
      `expires_in` seconds after `now`. */
  function TokenFromJson(json: JsonObject, now: int64): (t: MicrosoftToken)
    ensures t.value == GetString(json, "access_token")
    ensures t.refreshToken == GetString(json, "refresh_token")
    ensures t.expiryTime == ExpiryAfter(now, GetInt(json, "expires_in"))
  {
    MicrosoftToken(GetString(json, "access_token"), ExpiryAfter(now, GetInt(json, "expires_in")),
                   GetString(json, "refresh_token"))
  }

  /** getDeviceCode after the exchange: an "error" member makes it fail,
      otherwise the device code is read from the reply. */
  function DeviceCodeFromReply(reply: Reply<JsonObject>, now: int64): (r: Result<DeviceCode>)
    ensures reply.Failed? ==> r == Err(AuthenticationFailure(DeviceCodeFailed))
    ensures reply.Received? && Has(reply.body, "error") ==> r == Err(GetError(reply.body))
    ensures r.Ok? <==> reply.Received? && !Has(reply.body, "error")
    ensures r.Ok? ==>
      r.value.userCode == GetString(reply.body, "user_code") &&
      r.value.deviceCode == GetString(reply.body, "device_code") &&
      r.value.verificationUri == GetString(reply.body, "verification_uri") &&
      r.value.expiryTime == ExpiryAfter(now, GetInt(reply.body, "expires_in")) &&
      r.value.checkInterval == GetInt(reply.body, "interval")
  {
    match reply
    case Failed => Err(AuthenticationFailure(DeviceCodeFailed))
    case Received(json) =>
      if Has(json, "error") then Err(GetError(json))
      else Ok(DeviceCode(GetString(json, "user_code"), GetString(json, "device_code"),
                         GetString(json, "verification_uri"), ExpiryAfter(now, GetInt(json, "expires_in")),
                         GetInt(json, "interval")))
  }

  /** A device code read at `now` expires `expires_in` seconds later: without
      overflow, it is expired at a later reading exactly when more than that
      many milliseconds have passed, and a non-negative lifetime is not expired
      at once. */
  lemma DeviceCodeExpires(reply: Reply<JsonObject>, now: int64, later: int64)
    requires DeviceCodeFromReply(reply, now).Ok?
    requires -0x8000_0000_0000_0000 <= now + GetInt(reply.body, "expires_in") * 1000 < 0x8000_0000_0000_0000
    ensures var code := DeviceCodeFromReply(reply, now).value;
      var seconds := GetInt(reply.body, "expires_in");
      (code.Expired(later) <==> later - now > seconds * 1000) &&
      (seconds >= 0 ==> !code.Expired(now))
  {
  }

  /** A device code is not expired at its own expiry instant, and once
      expired it stays expired. */
  lemma DeviceCodeExpiryMonotone(code: DeviceCode, now: int64, later: int64)
    requires now <= later
    ensures !code.Expired(code.expiryTime)
    ensures code.Expired(now) ==> code.Expired(later)
    ensures !code.Expired(later) ==> !code.Expired(now)
  {
  }

  /** pollDeviceCode after the exchange. */
  function ClassifyPoll(reply: Reply<JsonObject>, now: int64): (r: Result<PollingResult>)
    ensures reply.Failed? ==> r == Err(AuthenticationFailure(PollingFailed))
    ensures r.Ok? ==> r.value.state != Expired
    ensures r.Ok? ==> (r.value.token.Some? <==> r.value.state == Accepted)
    ensures r.Ok? && r.value.state == Accepted <==> reply.Received? && !Has(reply.body, "error")
    ensures r.Ok? && r.value.state == Accepted ==> r.value.token == Some(TokenFromJson(reply.body, now))
    ensures r.Ok? && r.value.state == Pending <==>
      reply.Received? && Has(reply.body, "error") && GetString(reply.body, "error") == Some("authorization_pending")
    ensures r.Ok? && r.value.state == Declined <==>
      reply.Received? && Has(reply.body, "error") && GetString(reply.body, "error") == Some("authorization_declined")
    ensures reply.Received? && Has(reply.body, "error") && GetString(reply.body, "error").None? ==>
      r == Err(NullDereference)
    ensures (reply.Received? && Has(reply.body, "error") && GetString(reply.body, "error").Some? &&
             GetString(reply.body, "error").value != "authorization_pending" &&
             GetString(reply.body, "error").value != "authorization_declined")
            ==> r == Err(GetError(reply.body))
  {
    match reply
    case Failed => Err(AuthenticationFailure(PollingFailed))
    case Received(json) =>
      if Has(json, "error") then
        match GetString(json, "error")
        case None => Err(NullDereference)
        case Some(e) =>
          if e == "authorization_pending" then Ok(PollingResult(Pending, None))
          else if e == "authorization_declined" then Ok(PollingResult(Declined, None))
          else Err(GetError(json))
      else Ok(PollingResult(Accepted, Some(TokenFromJson(json, now))))
  }

  /** The RFC 8628 "slow_down" answer is not one of the polling states: it
      surfaces as the formatted error. */
  lemma SlowDownIsError(json: JsonObject, now: int64)
    requires Has(json, "error") && GetString(json, "error") == Some("slow_down")
    ensures ClassifyPoll(Received(json), now).Err?
    ensures ClassifyPoll(Received(json), now) == Err(GetError(json))
  {
  }

  /** refresh after the exchange. */
  function RefreshFromReply(reply: Reply<JsonObject>, now: int64): (r: Result<MicrosoftToken>)
    ensures reply.Failed? ==> r == Err(AuthenticationFailure(RefreshFailed))
    ensures reply.Received? && Has(reply.body, "error") ==> r == Err(GetError(reply.body))
    ensures r.Ok? <==> reply.Received? && !Has(reply.body, "error")
    ensures r.Ok? ==> r.value == TokenFromJson(reply.body, now)
  {
    match reply
    case Failed => Err(AuthenticationFailure(RefreshFailed))
    case Received(json) =>
      if Has(json, "error") then Err(GetError(json)) else Ok(TokenFromJson(json, now))
  }

  // ----- the form bodies -----

  function DeviceCodeFields(auth: Authenticator): map<string, string> {
    map["client_id" := auth.clientId, "scope" := auth.scope]
  }

  function PollFields(auth: Authenticator, deviceCode: string): map<string, string> {
    map["client_id" := auth.clientId, "grant_type" := auth.grantType, "device_code" := deviceCode]
  }

  function RefreshFields(auth: Authenticator, refreshToken: string): map<string, string> {
    map["client_id" := auth.clientId, "grant_type" := "refresh_token", "scope" := auth.scope,
        "refresh_token" := refreshToken]
  }

  /** The body text of a form holding the given non-null entries. */
  ghost predicate IsBodyOf(body: string, values: map<string, Nullable>) {
    exists order :: IsKeyOrder(order, values) && Serialisable(values, order) && body == Serialise(values, order)
  }

  /** A body serialised from a form whose entries are `fields` reads back as `fields`. */
  lemma BodyReadsBack(body: string, values: map<string, Nullable>, fields: map<string, string>)
    requires IsBodyOf(body, values)
    requires forall k :: k in values <==> k in fields
    requires forall k :: k in fields ==> values[k] == Some(fields[k])
    ensures FormDecode(body) == Some(fields)
  {
    var order :| IsKeyOrder(order, values) && Serialisable(values, order) && body == Serialise(values, order);
    FormDecodeSerialise(values, order);
    assert (map k | k in values :: values[k].value) == fields;
  }

  /** Builds the form, serialises it, and exchanges it: the request is sent
      only when serialising succeeds. */
  method Exchange(uri: string, form: FormBody, send: FormRequest -> Reply<JsonObject>)
    returns (sent: Result<FormRequest>, reply: Reply<JsonObject>)
    ensures sent.Ok? <==> forall k :: k in form.values ==> form.values[k].Some?
    ensures sent.Err? ==> sent.failure == NullDereference
    ensures sent.Ok? ==> sent.value.uri == uri && IsBodyOf(sent.value.body, form.values)
                         && reply == send(sent.value)
  {
    var body := form.AsRequestString();
    match body
    case Err(f) =>
      sent, reply := Err(f), Failed;
    case Ok(text) =>
      var request := FormRequest(uri, text);
      sent, reply := Ok(request), send(request);
  }

  lemma DeviceCodeForm(values: map<string, Nullable>, auth: Authenticator)
    requires values == map["client_id" := Some(auth.clientId), "scope" := Some(auth.scope)]
    ensures forall k :: k in values ==> values[k].Some?
    ensures forall body :: IsBodyOf(body, values) ==> FormDecode(body) == Some(DeviceCodeFields(auth))
  {
    var fields := DeviceCodeFields(auth);
    assert forall k :: k in values <==> k in fields;
    assert forall k :: k in fields ==> values[k] == Some(fields[k]);
    forall body | IsBodyOf(body, values) ensures FormDecode(body) == Some(fields) {
      BodyReadsBack(body, values, fields);
    }
  }

  lemma PollForm(values: map<string, Nullable>, auth: Authenticator, deviceCode: Nullable)
    requires values == map["client_id" := Some(auth.clientId), "grant_type" := Some(auth.grantType),
                           "device_code" := deviceCode]
    ensures (forall k :: k in values ==> values[k].Some?) <==> deviceCode.Some?
    ensures forall body :: IsBodyOf(body, values) && deviceCode.Some? ==>
      FormDecode(body) == Some(PollFields(auth, deviceCode.value))
  {
    assert values["device_code"] == deviceCode;
    if deviceCode.Some? {
      var fields := PollFields(auth, deviceCode.value);
      assert forall k :: k in values <==> k in fields;
      assert forall k :: k in fields ==> values[k] == Some(fields[k]);
      forall body | IsBodyOf(body, values) ensures FormDecode(body) == Some(fields) {
        BodyReadsBack(body, values, fields);
      }
    }
  }

  lemma RefreshForm(values: map<string, Nullable>, auth: Authenticator, refreshToken: Nullable)
    requires values == map["client_id" := Some(auth.clientId), "grant_type" := Some("refresh_token"),
                           "scope" := Some(auth.scope), "refresh_token" := refreshToken]
    ensures (forall k :: k in values ==> values[k].Some?) <==> refreshToken.Some?
    ensures forall body :: IsBodyOf(body, values) && refreshToken.Some? ==>
      FormDecode(body) == Some(RefreshFields(auth, refreshToken.value))
  {
    assert values["refresh_token"] == refreshToken;
    if refreshToken.Some? {
      var fields := RefreshFields(auth, refreshToken.value);
      assert forall k :: k in values <==> k in fields;
      assert forall k :: k in fields ==> values[k] == Some(fields[k]);
      forall body | IsBodyOf(body, values) ensures FormDecode(body) == Some(fields) {
        BodyReadsBack(body, values, fields);
      }
    }
  }

  /** getDeviceCode: posts client_id and scope to the device-code endpoint. */
  method GetDeviceCode(auth: Authenticator, now: int64, send: FormRequest -> Reply<JsonObject>)
    returns (r: Result<DeviceCode>, sent: FormRequest)
    ensures sent.uri == DeviceCodeUri
    ensures FormDecode(sent.body) == Some(DeviceCodeFields(auth))
    ensures r == DeviceCodeFromReply(send(sent), now)
  {
    var form := new FormBody();
    form := form.Add("client_id", Some(auth.clientId));
    form := form.Add("scope", Some(auth.scope));
    DeviceCodeForm(form.values, auth);
    var request, reply := Exchange(DeviceCodeUri, form, send);
    match request
    case Err(_) =>
      assert false;
    case Ok(req) =>
      sent := req;
      r := DeviceCodeFromReply(reply, now);
  }

  /** pollDeviceCode: an expired code answers Expired without any request;
      otherwise client_id, the configured grant type and the device code are
      posted to the token endpoint. */
  method PollDeviceCode(auth: Authenticator, code: DeviceCode, now: int64, send: FormRequest -> Reply<JsonObject>)
    returns (r: Result<PollingResult>, sent: Option<FormRequest>)
    ensures code.Expired(now) ==> r == Ok(PollingResult(Expired, None)) && sent == None
    ensures !code.Expired(now) && code.deviceCode.None? ==> r == Err(NullDereference) && sent == None
    ensures !code.Expired(now) && code.deviceCode.Some? ==>
      sent.Some? && sent.value.uri == TokenUri &&
      FormDecode(sent.value.body) == Some(PollFields(auth, code.deviceCode.value)) &&
      r == ClassifyPoll(send(sent.value), now)
  {
    if code.Expired(now) {
      return Ok(PollingResult(Expired, None)), None;
    }
    var form := new FormBody();
    form := form.Add("client_id", Some(auth.clientId));
    form := form.Add("grant_type", Some(auth.grantType));
    form := form.Add("device_code", code.deviceCode);
    PollForm(form.values, auth, code.deviceCode);
    var request, reply := Exchange(TokenUri, form, send);
    match request
    case Err(f) =>
      r, sent := Err(f), None;
    case Ok(req) =>
      sent := Some(req);
      r := ClassifyPoll(reply, now);
  }

  /** refresh: posts client_id, grant_type=refresh_token, the scope and the
      old token's refresh token to the token endpoint. */
  method Refresh(auth: Authenticator, token: MicrosoftToken, now: int64, send: FormRequest -> Reply<JsonObject>)
    returns (r: Result<MicrosoftToken>, sent: Option<FormRequest>)
    ensures token.refreshToken.None? ==> r == Err(NullDereference) && sent == None
    ensures token.refreshToken.Some? ==>
      sent.Some? && sent.value.uri == TokenUri &&
      FormDecode(sent.value.body) == Some(RefreshFields(auth, token.refreshToken.value)) &&
      r == RefreshFromReply(send(sent.value), now)
  {
    var form := new FormBody();
    form := form.Add("client_id", Some(auth.clientId));
    form := form.Add("grant_type", Some("refresh_token"));
    form := form.Add("scope", Some(auth.scope));
    form := form.Add("refresh_token", token.refreshToken);
    RefreshForm(form.values, auth, token.refreshToken);
    var request, reply := Exchange(TokenUri, form, send);
    match request
    case Err(f) =>
      r, sent := Err(f), None;
    case Ok(req) =>
      sent := Some(req);
      r := RefreshFromReply(reply, now);
  }

  // ----- configuration -----

  /** MicrosoftAuthenticator.Builder: the client id is fixed, the other
      settings start at their defaults and each setter rejects null. */
  class Builder {
    const clientId: string
    var httpClient: Option<HttpClient>
    var scope: string
    var grantType: string

    constructor(clientId: string)
      ensures this.clientId == clientId && httpClient == None
      ensures scope == DefaultScope && grantType == DefaultGrantType
    {
      this.clientId := clientId;
      httpClient := None;
      scope := DefaultScope;
      grantType := DefaultGrantType;
    }

    method SetHttpClient(client: Option<HttpClient>) returns (r: Result<Builder>)
      modifies this
      ensures client.None? ==> r == Err(NullArgument("httpClient cannot be null")) && unchanged(this)
      ensures client.Some? ==> r == Ok(this) && httpClient == client
      ensures scope == old(scope) && grantType == old(grantType)
    {
      if client.None? {
        return Err(NullArgument("httpClient cannot be null"));
      }
      httpClient := client;
      r := Ok(this);
    }

    method SetScope(s: Nullable) returns (r: Result<Builder>)
      modifies this
      ensures s.None? ==> r == Err(NullArgument("scope cannot be null")) && unchanged(this)
      ensures s.Some? ==> r == Ok(this) && scope == s.value
      ensures httpClient == old(httpClient) && grantType == old(grantType)
    {
      match s
      case None =>
        r := Err(NullArgument("scope cannot be null"));
      case Some(v) =>
        scope := v;
        r := Ok(this);
    }

    method SetGrantType(g: Nullable) returns (r: Result<Builder>)
      modifies this
      ensures g.None? ==> r == Err(NullArgument("grantType cannot be null")) && unchanged(this)
      ensures g.Some? ==> r == Ok(this) && grantType == g.value
      ensures httpClient == old(httpClient) && scope == old(scope)
    {
      match g
      case None =>
        r := Err(NullArgument("grantType cannot be null"));
      case Some(v) =>
        grantType := v;
        r := Ok(this);
    }

    /** build: a missing client is replaced by a new default one (and kept). */
    method Build() returns (a: Authenticator)
      modifies this
      ensures old(httpClient).None? ==> httpClient == Some(NewHttpClient)
      ensures old(httpClient).Some? ==> httpClient == old(httpClient)
      ensures a == Authenticator(httpClient.value, clientId, scope, grantType)
      ensures scope == old(scope) && grantType == old(grantType)
    {
      if httpClient.None? {
        httpClient := Some(NewHttpClient);
      }
      a := Authenticator(httpClient.value, clientId, scope, grantType);
    }
  }

  /** createBuilder: a null client id is rejected. */
  method CreateBuilder(clientId: Nullable) returns (r: Result<Builder>)
    ensures clientId.None? ==> r == Err(NullArgument("clientId cannot be null"))
    ensures clientId.Some? ==>
      r.Ok? && fresh(r.value) && r.value.clientId == clientId.value &&
      r.value.httpClient == None && r.value.scope == DefaultScope && r.value.grantType == DefaultGrantType
  {
    match clientId
    case None =>
      r := Err(NullArgument("clientId cannot be null"));
    case Some(id) =>
      var b := new Builder(id);
      r := Ok(b);
  }

  /** createDefault: the default client, scope and grant type. */
  method CreateDefault(clientId: Nullable) returns (r: Result<Authenticator>)
    ensures clientId.None? ==> r == Err(NullArgument("clientId cannot be null"))
    ensures clientId.Some? ==> r == Ok(Authenticator(NewHttpClient, clientId.value, DefaultScope, DefaultGrantType))
  {
    var b := CreateBuilder(clientId);
    match b
    case Err(f) =>
      r := Err(f);
    case Ok(builder) =>
      var a := builder.Build();
      r := Ok(a);
  }
}

=== FILE: mojang.dfy ===
/** MojangAuthenticator: logs in to the Minecraft services with an XSTS token,
    reads the player's profile, and announces a server join to the session
    server. The transport is the parameter `send` and the clock is `now`. */
module MojangAuthenticator {
  import opened Common
  import opened Text
  import opened Json
  import opened Tokens
  import opened AuthUtils

  const AuthUri := "https://api.minecraftservices.com/authentication/login_with_xbox"
  const ProfileUri := "https://api.minecraftservices.com/minecraft/profile"
  const SessionJoinUri := "https://sessionserver.mojang.com/session/minecraft/join"

  const IdentityPrefix := "XBL3.0 x="

  const LoginFailed := "Authentication request to Mojang failed"
  const ProfileFailed := "Profile request to Mojang failed"
  const JoinFailed := "Session join request to Mojang failed"

  datatype GameProfile = GameProfile(uuid: Uuid, username: Nullable)

  /** The identity token, "XBL3.0 x=%s;%s" filled with the user hash and the
      XSTS token (a null one reads "null", as String.format writes it). */
  function IdentityToken(t: XboxToken): (s: string)
    ensures IdentityPrefix <= s
  {
    IdentityPrefix + Show(t.userHash) + ";" + Show(t.value)
  }

  /** When the user hash has no ';', the identity token splits back, at its
      first ';' after the prefix, into the user hash and the token. */
  lemma IdentityTokenParts(t: XboxToken)
    requires ';' !in Show(t.userHash)
    ensures var rest := IdentityToken(t)[|IdentityPrefix|..];
      BeforeFirst(rest, ';') == Show(t.userHash) &&
      rest[|Show(t.userHash)| + 1..] == Show(t.value)
  {
    var h, v := Show(t.userHash), Show(t.value);
    var rest := IdentityToken(t)[|IdentityPrefix|..];
    assert rest == h + ";" + v;
    assert rest[|h|] == ';';
    assert rest[..IndexOf(rest, ';')] == h by {
      assert rest[..|h|] == h;
    }
  }

  /** getAccessToken's request. */
  function LoginRequest(t: XboxToken): (r: JsonRequest)
    ensures r.uri == AuthUri && r.body == Some(JObject(map["identityToken" := JString(IdentityToken(t))]))
  {
    JsonRequest(AuthUri, map[], Some(JObject(map["identityToken" := JString(IdentityToken(t))])))
  }

  /** getAccessToken after the exchange: the reply is not checked for an error
      member; the token and its lifetime are read as they are. */
  function LoginFromReply(reply: Reply<JsonObject>, now: int64): (r: Result<MojangToken>)
    ensures r.Err? <==> reply.Failed?
    ensures r.Err? ==> r.failure == AuthenticationFailure(LoginFailed)
    ensures r.Ok? ==> r.value.value == GetString(reply.body, "access_token")
    ensures r.Ok? ==> r.value.expiryTime == ExpiryAfter(now, GetInt(reply.body, "expires_in"))
  {
    match reply
    case Failed => Err(AuthenticationFailure(LoginFailed))
    case Received(json) =>
      Ok(MojangToken(GetString(json, "access_token"), ExpiryAfter(now, GetInt(json, "expires_in"))))
  }

  /** getProfile's request: a GET carrying the token as a bearer credential. */
  function ProfileRequest(t: MojangToken): (r: JsonRequest)
    ensures r.uri == ProfileUri && r.body.None?
    ensures r.headers == map["Authorization" := "Bearer " + Show(t.value)]
  {
    JsonRequest(ProfileUri, map["Authorization" := "Bearer " + Show(t.value)], None)
  }

  /** getProfile after the exchange. The id goes through parseMojangUuid, whose
      exceptions are not caught here; a missing id is a null dereference. */
  function ProfileFromReply(reply: Reply<JsonObject>): (r: Result<GameProfile>)
    ensures reply.Failed? ==> r == Err(AuthenticationFailure(ProfileFailed))
    ensures reply.Received? && GetString(reply.body, "id").None? ==> r == Err(NullDereference)
    ensures reply.Received? && GetString(reply.body, "id").Some? ==>
      var id := GetString(reply.body, "id").value;
      match ParseMojangUuid(id)
      case Err(f) => r == Err(f)
      case Ok(u) => r == Ok(GameProfile(u, GetString(reply.body, "name")))
  {
    match reply
    case Failed => Err(AuthenticationFailure(ProfileFailed))
    case Received(json) =>
      match GetString(json, "id")
      case None => Err(NullDereference)
      case Some(id) =>
        match ParseMojangUuid(id)
        case Err(f) => Err(f)
        case Ok(u) => Ok(GameProfile(u, GetString(json, "name")))
  }

  /** An id that is not 32 UTF-16 units long fails with the length message,
      unwrapped. */
  lemma ProfileIdLength(json: JsonObject)
    requires GetString(json, "id").Some? && Utf16Length(GetString(json, "id").value) != 32
    ensures ProfileFromReply(Received(json)) == Err(IllegalState(LengthMessage(GetString(json, "id").value)))
  {
  }

  /** An id of hex digits that is not 32 long, such as the 31-digit
      "069a79f444e94726a5befca90e38aaf", is one of them. */
  lemma ShortProfileId(id: string)
    requires |id| != 32 && forall i :: 0 <= i < |id| ==> IsHex(id[i])
    ensures ParseMojangUuid(id) == Err(IllegalState(LengthMessage(id)))
  {
    HexLength(id);
  }

  /** sendJoin's request: the access token, the undashed profile id (the
      minified UUID, 32 lowercase hex digits that parse back to it) and the
      server hash. */
  function JoinRequest(t: MojangToken, profile: GameProfile, serverHash: Nullable): (r: JsonRequest)
    ensures r.uri == SessionJoinUri && r.body.Some? && r.body.value.JObject?
    ensures r.body.value.fields.Keys == {"accessToken", "selectedProfile", "serverId"}
    ensures r.body.value.fields["accessToken"] == StringValue(t.value)
    ensures r.body.value.fields["serverId"] == StringValue(serverHash)
    ensures r.body.value.fields["selectedProfile"] == JString(MinifyUuid(profile.uuid))
    ensures var sp := r.body.value.fields["selectedProfile"];
      sp.JString? && |sp.s| == 32 && ParseMojangUuid(sp.s) == Ok(profile.uuid)
  {
    ParseMojangUuidMinify(profile.uuid);
    JsonRequest(SessionJoinUri, map[],
                Some(JObject(map["accessToken" := StringValue(t.value),
                                 "selectedProfile" := JString(MinifyUuid(profile.uuid)),
                                 "serverId" := StringValue(serverHash)])))
  }

  /** sendJoin after the exchange: the reply body is discarded, so only a
      failed exchange is reported. */
  function JoinFromReply(reply: Reply<()>): (r: Result<()>)
    ensures r.Ok? <==> reply.Received?
    ensures r.Err? ==> r.failure == AuthenticationFailure(JoinFailed)
  {
    match reply
    case Failed => Err(AuthenticationFailure(JoinFailed))
    case Received(_) => Ok(())
  }

  /** getAccessToken: the login request goes out, and the token and its
      lifetime come back from the reply. */
  function GetAccessToken(t: XboxToken, now: int64, send: JsonRequest -> Reply<JsonObject>): (r: Result<MojangToken>)
    ensures send(LoginRequest(t)).Failed? <==> r == Err(AuthenticationFailure(LoginFailed))
    ensures r.Ok? ==> r.value.value == GetString(send(LoginRequest(t)).body, "access_token")
  {
    LoginFromReply(send(LoginRequest(t)), now)
  }

  /** getProfile: the profile request goes out, and on success the profile's
      id is the parsed "id" of the reply and its name the reply's "name". */
  function GetProfile(t: MojangToken, send: JsonRequest -> Reply<JsonObject>): (r: Result<GameProfile>)
    ensures send(ProfileRequest(t)).Failed? ==> r == Err(AuthenticationFailure(ProfileFailed))
    ensures r.Ok? ==>
      var reply := send(ProfileRequest(t));
      reply.Received? && GetString(reply.body, "id").Some? &&
      ParseMojangUuid(GetString(reply.body, "id").value) == Ok(r.value.uuid) &&
      r.value.username == GetString(reply.body, "name")
  {
    ProfileFromReply(send(ProfileRequest(t)))
  }

  /** sendJoin: succeeds exactly when the join exchange does. */
  function SendJoin(t: MojangToken, profile: GameProfile, serverHash: Nullable,
                    send: JsonRequest -> Reply<()>): (r: Result<()>)
    ensures r.Ok? <==> send(JoinRequest(t, profile, serverHash)).Received?
    ensures r.Err? ==> r.failure == AuthenticationFailure(JoinFailed)
  {
    JoinFromReply(send(JoinRequest(t, profile, serverHash)))
  }

  /** The join names the player by exactly the id the profile reply gave,
      when that id is in the lowercase form Mojang sends. */
  lemma JoinSendsProfileId(t: MojangToken, json: JsonObject, serverHash: Nullable)
    requires GetString(json, "id").Some?
    requires var id := GetString(json, "id").value;
      |id| == 32 && forall i :: 0 <= i < 32 ==> IsLowerHex(id[i])
    ensures ProfileFromReply(Received(json)).Ok?
    ensures JoinRequest(t, ProfileFromReply(Received(json)).value, serverHash).body.value.fields["selectedProfile"]
      == JString(GetString(json, "id").value)
  {
    MinifyParseMojangUuid(GetString(json, "id").value);
  }
}

=== FILE: text.dfy ===
/** The pieces of java.lang.String and java.lang.Long/BigInteger text handling
    that the library relies on: splitting on a separator (both the plain kind
    and String.split's kind), joining, trimming, and rendering and parsing
    numbers in a radix. */
module Text {
  import opened Common

  /** Position of the first occurrence of `c` in `s`. */
  function IndexOf(s: string, c: char): (i: nat)
    requires c in s
    ensures i < |s| && s[i] == c && c !in s[..i]
  {
    if s[0] == c then 0 else 1 + IndexOf(s[1..], c)
  }

  /** `parts` joined with `sep` between each two neighbours. */
  function Join(parts: seq<string>, sep: char): (s: string)
  {
    if |parts| == 0 then ""
    else if |parts| == 1 then parts[0]
    else parts[0] + [sep] + Join(parts[1..], sep)
  }

  /** Every occurrence of `sep` cuts `s`; empty pieces are kept. */
  function SplitAll(s: string, sep: char): (parts: seq<string>)
    ensures |parts| >= 1
    ensures forall k :: 0 <= k < |parts| ==> sep !in parts[k]
    ensures Join(parts, sep) == s
    decreases |s|
  {
    if sep !in s then [s]
    else
      var i := IndexOf(s, sep);
      assert s == s[..i] + [sep] + s[i + 1..];
      [s[..i]] + SplitAll(s[i + 1..], sep)
  }

  /** Splitting a joined list of separator-free pieces gives the pieces back. */
  lemma {:induction false} SplitJoin(parts: seq<string>, sep: char)
    requires |parts| >= 1
    requires forall k :: 0 <= k < |parts| ==> sep !in parts[k]
    ensures SplitAll(Join(parts, sep), sep) == parts
  {
    if |parts| > 1 {
      var s := Join(parts, sep);
      var tail := Join(parts[1..], sep);
      assert s == parts[0] + [sep] + tail;
      assert sep in s by { assert s[|parts[0]|] == sep; }
      var i := IndexOf(s, sep);
      assert s[..i] == parts[0];
      assert s[i + 1..] == tail;
      SplitJoin(parts[1..], sep);
    }
  }

  /** Removes the empty strings at the end of `parts`. */
  function DropTrailingEmpty(parts: seq<string>): (r: seq<string>)
    ensures |r| <= |parts| && r == parts[..|r|]
    ensures |r| > 0 ==> r[|r| - 1] != ""
    ensures forall k :: |r| <= k < |parts| ==> parts[k] == ""
  {
    if |parts| > 0 && parts[|parts| - 1] == "" then DropTrailingEmpty(parts[..|parts| - 1])
    else parts
  }

  /** `s.split(sep)` with Java's rules for a one-character pattern: a string
      without the separator is returned whole (even when empty); otherwise
      every separator cuts, a leading empty piece is kept and all trailing
      empty pieces are dropped. */
  function JavaSplit(s: string, sep: char): (parts: seq<string>)
  {
    if sep !in s then [s] else DropTrailingEmpty(SplitAll(s, sep))
  }

  /** The text before the first `sep` (all of `s` when it has none). */
  function BeforeFirst(s: string, sep: char): (r: string)
    ensures sep !in r && r <= s
    ensures |r| < |s| ==> s[|r|] == sep
  {
    if sep in s then s[..IndexOf(s, sep)] else s
  }

  /** The text before the first `sep` of `line + [sep] + more`, where `line`
      has no `sep`, is `line`. */
  lemma BeforeFirstLine(line: string, sep: char, more: string)
    requires sep !in line
    ensures BeforeFirst(line + [sep] + more, sep) == line
  {
    var d := line + [sep] + more;
    assert d[|line|] == sep;
    assert d[..|line|] == line;
  }

  ghost predicate AllOf(s: string, c: char) {
    forall k :: 0 <= k < |s| ==> s[k] == c
  }

  /** Java's `s.split(sep)[0]`: there is no first piece exactly when `s` is a
      non-empty run of separators, and otherwise it is the text before the
      first separator. */
  lemma {:induction false} JavaSplitFirst(s: string, sep: char)
    ensures |JavaSplit(s, sep)| == 0 <==> (s != "" && AllOf(s, sep))
    ensures |JavaSplit(s, sep)| > 0 ==> JavaSplit(s, sep)[0] == BeforeFirst(s, sep)
  {
    if sep in s {
      var parts := SplitAll(s, sep);
      var i := IndexOf(s, sep);
      assert parts[0] == s[..i];
      var r := DropTrailingEmpty(parts);
      if AllOf(s, sep) {
        AllSeparatorsSplit(s, sep);
        assert |r| == 0;
      } else {
        var k :| 0 <= k < |s| && s[k] != sep;
        NonSeparatorSurvives(s, sep, k);
        assert |r| > 0;
        assert r[0] == parts[0];
      }
    } else {
      assert s != "" ==> s[0] != sep;
    }
  }

  lemma {:induction false} AllSeparatorsSplit(s: string, sep: char)
    requires AllOf(s, sep)
    ensures forall k :: 0 <= k < |SplitAll(s, sep)| ==> SplitAll(s, sep)[k] == ""
    decreases |s|
  {
    if s != "" {
      assert s[0] == sep;
      var i := IndexOf(s, sep);
      assert i == 0;
      AllSeparatorsSplit(s[1..], sep);
    }
  }

  /** A character other than the separator leaves a non-empty piece at or after
      the piece it lives in, so not every piece can be dropped. */
  lemma {:induction false} NonSeparatorSurvives(s: string, sep: char, k: nat)
    requires k < |s| && s[k] != sep
    ensures |DropTrailingEmpty(SplitAll(s, sep))| > 0
    decreases |s|
  {
    var parts := SplitAll(s, sep);
    if sep in s {
      var i := IndexOf(s, sep);
      if k < i {
        assert parts[0][k] == s[k];
        assert parts[0] != "";
      } else {
        assert k != i;
        NonSeparatorSurvives(s[i + 1..], sep, k - i - 1);
        var rest := SplitAll(s[i + 1..], sep);
        assert parts == [s[..i]] + rest;
        var r := DropTrailingEmpty(parts);
        var r' := DropTrailingEmpty(rest);
        assert rest[|r'| - 1] != "";
        assert parts[|r'|] != "";
      }
    } else {
      assert parts == [s];
      assert s != "";
    }
  }

  /** Java split of separator-free pieces whose last piece is non-empty
      returns the pieces, whether or not the text ends in separators. */
  lemma {:induction false} JavaSplitJoin(parts: seq<string>, sep: char, trailing: nat)
    requires |parts| >= 2 && parts[|parts| - 1] != ""
    requires forall k :: 0 <= k < |parts| ==> sep !in parts[k]
    ensures JavaSplit(Join(parts, sep) + seq(trailing, _ => sep), sep) == parts
  {
    var extra := seq(trailing, _ => "");
    var all := parts + extra;
    JoinTrailingEmpty(parts, sep, trailing);
    SplitJoin(all, sep);
    var s := Join(parts, sep) + seq(trailing, _ => sep);
    assert sep in s by {
      JoinHasSeparator(parts, sep);
    }
    DropTrailingEmptyOf(parts, trailing);
  }

  lemma {:induction false} JoinHasSeparator(parts: seq<string>, sep: char)
    requires |parts| >= 2
    ensures sep in Join(parts, sep)
  {
    assert Join(parts, sep)[|parts[0]|] == sep;
  }

  lemma {:induction false} JoinTrailingEmpty(parts: seq<string>, sep: char, trailing: nat)
    requires |parts| >= 1
    ensures Join(parts + seq(trailing, _ => ""), sep) == Join(parts, sep) + seq(trailing, _ => sep)
    decreases |parts|
  {
    var extra := seq(trailing, _ => "");
    if |parts| == 1 {
      JoinEmpties(parts[0], sep, trailing);
    } else {
      assert (parts + extra)[1..] == parts[1..] + extra;
      JoinTrailingEmpty(parts[1..], sep, trailing);
    }
  }

  lemma {:induction false} JoinEmpties(first: string, sep: char, trailing: nat)
    ensures Join([first] + seq(trailing, _ => ""), sep) == first + seq(trailing, _ => sep)
    decreases trailing
  {
    if trailing > 0 {
      var s := [first] + seq(trailing, _ => "");
      assert s[1..] == [""] + seq(trailing - 1, _ => "");
      JoinEmpties("", sep, trailing - 1);
      assert seq(trailing, _ => sep) == [sep] + seq(trailing - 1, _ => sep);
    } else {
      assert [first] + seq(trailing, _ => "") == [first];
    }
  }

  lemma {:induction false} DropTrailingEmptyOf(parts: seq<string>, trailing: nat)
    requires |parts| > 0 && parts[|parts| - 1] != ""
    ensures DropTrailingEmpty(parts + seq(trailing, _ => "")) == parts
    decreases trailing
  {
    if trailing > 0 {
      var all := parts + seq(trailing, _ => "");
      assert all[..|all| - 1] == parts + seq(trailing - 1, _ => "");
      DropTrailingEmptyOf(parts, trailing - 1);
    } else {
      assert parts + seq(trailing, _ => "") == parts;
    }
  }

  /** Every character of `s` is at most U+0020, the characters String.trim removes. */
  ghost predicate AllBlank(s: string) {
    forall k :: 0 <= k < |s| ==> s[k] <= ' '
  }

  ghost predicate TrimmedAt(s: string, r: string, i: nat) {
    i + |r| <= |s| && s[i..i + |r|] == r && AllBlank(s[..i]) && AllBlank(s[i + |r|..])
  }

  function TrimStart(s: string): (i: nat)
    ensures i <= |s| && AllBlank(s[..i]) && (i < |s| ==> s[i] > ' ')
  {
    if |s| > 0 && s[0] <= ' ' then 1 + TrimStart(s[1..]) else 0
  }

  function TrimEnd(s: string): (j: nat)
    ensures j <= |s| && AllBlank(s[j..]) && (j > 0 ==> s[j - 1] > ' ')
  {
    if |s| > 0 && s[|s| - 1] <= ' ' then
      var j := TrimEnd(s[..|s| - 1]);
      assert s[j..] == s[..|s| - 1][j..] + [s[|s| - 1]];
      j
    else |s|
  }

  /** String.trim: `s` without its leading and trailing characters up to U+0020. */
  function Trim(s: string): (r: string)
    ensures r == "" || (r[0] > ' ' && r[|r| - 1] > ' ')
    ensures exists i :: TrimmedAt(s, r, i)
  {
    var i := TrimStart(s);
    if i == |s| then
      assert TrimmedAt(s, "", i);
      ""
    else
      var j := TrimEnd(s);
      assert i < j;
      assert TrimmedAt(s, s[i..j], i);
      s[i..j]
  }

  /** Trimming adds no character: one absent from `s` is absent from its trim. */
  lemma TrimWithout(s: string, c: char)
    requires c !in s
    ensures c !in Trim(s)
  {
    var t := Trim(s);
    var i: nat :| TrimmedAt(s, t, i);
    assert t == s[i..i + |t|];
  }

  // ----- numbers in a radix -----

  /** The lowercase digit for `d` (Character.forDigit). */
  function DigitChar(d: nat): (c: char)
    requires d < 16
  {
    "0123456789abcdef"[d]
  }

  /** Character.digit for ASCII: 0-9, a-f and A-F. */
  function CharDigit(c: char): (d: Option<nat>)
    ensures d.Some? ==> d.value < 16
  {
    if '0' <= c <= '9' then Some(c as int - '0' as int)
    else if 'a' <= c <= 'f' then Some(c as int - 'a' as int + 10)
    else if 'A' <= c <= 'F' then Some(c as int - 'A' as int + 10)
    else None
  }

  lemma DigitCharDigit(d: nat)
    requires d < 16
    ensures CharDigit(DigitChar(d)) == Some(d)
  {
  }

  /** `c` is a lowercase digit of the radix. */
  predicate IsLowerDigit(c: char, radix: nat) {
    ('0' <= c <= '9' || 'a' <= c <= 'f') && CharDigit(c).value < radix
  }

  lemma DivMod(n: nat, radix: nat)
    requires 2 <= radix && n >= radix
    ensures n == (n / radix) * radix + n % radix && 0 <= n % radix < radix
    ensures 0 < n / radix < n
  {
  }

  /** `n` in the given radix, most significant digit first, lowercase, with no
      leading zero (Long.toString / BigInteger.toString for n >= 0). */
  function NatToString(n: nat, radix: nat): (s: string)
    requires 2 <= radix <= 16
    ensures |s| >= 1
    ensures forall k :: 0 <= k < |s| ==> IsLowerDigit(s[k], radix)
    ensures s[0] == '0' <==> n == 0
    ensures n == 0 ==> s == "0"
    decreases n
  {
    if n < radix then
      DigitCharDigit(n);
      [DigitChar(n)]
    else
      DivMod(n, radix);
      DigitCharDigit(n % radix);
      var front := NatToString(n / radix, radix);
      front + [DigitChar(n % radix)]
  }

  /** The value of a non-empty string of digits in the radix (either case). */
  function ParseNat(s: string, radix: nat): (r: Option<nat>)
    requires 2 <= radix <= 16
  {
    if |s| == 0 then None
    else
      var d := CharDigit(s[|s| - 1]);
      if d.None? || d.value >= radix then None
      else if |s| == 1 then Some(d.value)
      else match ParseNat(s[..|s| - 1], radix)
        case None => None
        case Some(v) => Some(v * radix + d.value)
  }

  /** Parsing a rendered natural number gives it back. */
  lemma {:induction false} ParseNatToString(n: nat, radix: nat)
    requires 2 <= radix <= 16
    ensures ParseNat(NatToString(n, radix), radix) == Some(n)
    decreases n
  {
    if n < radix {
      DigitCharDigit(n);
    } else {
      DivMod(n, radix);
      DigitCharDigit(n % radix);
      var s := NatToString(n, radix);
      assert s[..|s| - 1] == NatToString(n / radix, radix);
      ParseNatToString(n / radix, radix);
    }
  }

  /** A `long` or BigInteger value in the radix: `-` then the magnitude's digits
      when negative. */
  function IntToString(v: int, radix: nat): (s: string)
    requires 2 <= radix <= 16
  {
    if v < 0 then "-" + NatToString(-v, radix) else NatToString(v, radix)
  }

  /** Long.parseLong / new BigInteger(s, radix) on an optional `-` and digits. */
  function ParseInt(s: string, radix: nat): (r: Option<int>)
    requires 2 <= radix <= 16
  {
    if |s| > 0 && s[0] == '-' then
      match ParseNat(s[1..], radix)
      case None => None
      case Some(v) => Some(0 - v)
    else
      match ParseNat(s, radix)
      case None => None
      case Some(v) => Some(v)
  }

  /** Rendering then parsing a number in the same radix is the identity. */
  lemma ParseIntToString(v: int, radix: nat)
    requires 2 <= radix <= 16
    ensures ParseInt(IntToString(v, radix), radix) == Some(v)
  {
    if v < 0 {
      var s := IntToString(v, radix);
      assert s[1..] == NatToString(-v, radix);
      ParseNatToString(-v, radix);
    } else {
      var s := NatToString(v, radix);
      assert IsLowerDigit(s[0], radix);
      assert s[0] != '-';
      ParseNatToString(v, radix);
    }
  }
}

=== FILE: tokens.dfy ===
/** The token values the library hands between its three authentication
    steps. Token is an abstract class with three immutable subclasses; here it
    is one datatype with a constructor per subclass, and each subclass is a
    subset type of it. */
module Tokens {
  import opened Common
  import opened Text
  import opened Json
  import Base64Url

  datatype Token =
    | MicrosoftToken(value: Nullable, expiryTime: int64, refreshToken: Nullable)
    | XboxToken(value: Nullable, expiryTime: int64, userHash: Nullable)
    | MojangToken(value: Nullable, expiryTime: int64)
  {
    /** isExpired with the clock reading `now` (milliseconds since the epoch). */
    predicate IsExpired(now: int64) {
      now > expiryTime
    }
  }

  type MicrosoftToken = t: Token | t.MicrosoftToken? witness MicrosoftToken(None, 0, None)
  type XboxToken = t: Token | t.XboxToken? witness XboxToken(None, 0, None)
  type MojangToken = t: Token | t.MojangToken? witness MojangToken(None, 0)

  /** A token is expired strictly after its expiry instant, and stays expired. */
  lemma ExpiryMonotone(t: Token, now: int64, later: int64)
    requires now <= later
    ensures !t.IsExpired(t.expiryTime)
    ensures t.IsExpired(now) ==> t.IsExpired(later)
    ensures !t.IsExpired(later) ==> !t.IsExpired(now)
  {
  }

  /** The expiry instant `now + expiresIn * 1000L` in Java long arithmetic, for
      an `expires_in` read as an int number of seconds. */
  function ExpiryAfter(now: int64, expiresIn: int32): (e: int64)
    ensures (now + expiresIn * 1000 - e) % 0x1_0000_0000_0000_0000 == 0
  {
    WrapLong(now + expiresIn * 1000)
  }

  /** Without overflow, a token issued at `now` with a lifetime of `expiresIn`
      seconds is expired at a later instant exactly when more than that many
      milliseconds have passed; a non-negative lifetime is not expired at once. */
  lemma ExpiryAfterMeaning(t: Token, now: int64, expiresIn: int32, later: int64)
    requires t.expiryTime == ExpiryAfter(now, expiresIn)
    requires -0x8000_0000_0000_0000 <= now + expiresIn * 1000 < 0x8000_0000_0000_0000
    ensures t.IsExpired(later) <==> later - now > expiresIn * 1000
    ensures expiresIn >= 0 ==> !t.IsExpired(now)
  {
  }

  const InvalidFormat := "Failed to get XUID from Mojang JWT, invalid token format"
  const InvalidJson := "Failed to get XUID from Mojang JWT - invalid JSON"

  /** jwtPayload up to the JSON parse: the value is split on '.', exactly three
      segments are required, and the middle one is base64url-decoded. */
  function JwtPayloadBytes(t: MojangToken): (r: Result<seq<byte>>)
    ensures t.value.None? ==> r == Err(NullDereference)
    ensures t.value.Some? && |JavaSplit(t.value.value, '.')| != 3 ==> r == Err(IllegalState(InvalidFormat))
    ensures t.value.Some? && |JavaSplit(t.value.value, '.')| == 3 ==>
      match Base64Url.Decode(JavaSplit(t.value.value, '.')[1])
      case None => r == Err(IllegalBase64)
      case Some(b) => r == Ok(b)
  {
    match t.value
    case None => Err(NullDereference)
    case Some(v) =>
      var parts := JavaSplit(v, '.');
      if |parts| != 3 then Err(IllegalState(InvalidFormat))
      else match Base64Url.Decode(parts[1])
        case None => Err(IllegalBase64)
        case Some(b) => Ok(b)
  }

  /** getXboxUserId: the "xuid" string of the payload, or null. `parsePayload`
      stands for decoding the bytes as UTF-8 and parsing a JSON object from the
      text, None where nanojson throws JsonParserException. */
  function XboxUserId(t: MojangToken, parsePayload: seq<byte> -> Option<JsonObject>): (r: Result<Nullable>)
    ensures JwtPayloadBytes(t).Err? ==> r == Err(JwtPayloadBytes(t).failure)
    ensures JwtPayloadBytes(t).Ok? && parsePayload(JwtPayloadBytes(t).value).None? ==>
      r == Err(AuthenticationFailure(InvalidJson))
    ensures JwtPayloadBytes(t).Ok? && parsePayload(JwtPayloadBytes(t).value).Some? ==>
      r == Ok(GetString(parsePayload(JwtPayloadBytes(t).value).value, "xuid"))
  {
    match JwtPayloadBytes(t)
    case Err(f) => Err(f)
    case Ok(b) =>
      match parsePayload(b)
      case None => Err(AuthenticationFailure(InvalidJson))
      case Some(json) => Ok(GetString(json, "xuid"))
  }

  /** The compact serialisation of a JWT whose payload segment is `payload`. */
  function Compact(header: string, payload: string, signature: string): (jwt: string) {
    header + "." + payload + "." + signature
  }

  /** Three dot-free segments with a non-empty signature split back into
      themselves, even when further dots follow (Java drops trailing empty
      pieces). */
  lemma CompactSplit(header: string, payload: string, signature: string, trailing: nat)
    requires '.' !in header && '.' !in payload && '.' !in signature && signature != ""
    ensures JavaSplit(Compact(header, payload, signature) + seq(trailing, _ => '.'), '.')
      == [header, payload, signature]
  {
    var parts := [header, payload, signature];
    assert Join(parts, '.') == Compact(header, payload, signature) by {
      assert Join(parts[1..], '.') == payload + "." + signature by {
        assert parts[1..][1..] == [signature];
      }
    }
    JavaSplitJoin(parts, '.', trailing);
  }

  /** Only the payload segment matters: for any header and any non-empty
      signature, the XUID is read from the decoded payload bytes. */
  lemma XboxUserIdOfCompact(header: string, payload: seq<byte>, signature: string,
                              expiry: int64, parsePayload: seq<byte> -> Option<JsonObject>)
    requires '.' !in header && '.' !in signature && signature != ""
    ensures var t := MojangToken(Some(Compact(header, Base64Url.Encode(payload), signature)), expiry);
      JwtPayloadBytes(t) == Ok(payload) &&
      XboxUserId(t, parsePayload) ==
        match parsePayload(payload)
        case None => Err(AuthenticationFailure(InvalidJson))
        case Some(json) => Ok(GetString(json, "xuid"))
  {
    var p := Base64Url.Encode(payload);
    Base64Url.EncodeInAlphabet(payload);
    assert '.' !in p;
    CompactSplit(header, p, signature, 0);
    assert Compact(header, p, signature) + seq(0, _ => '.') == Compact(header, p, signature);
    Base64Url.DecodeEncode(payload);
  }

  /** A token with an empty signature segment ("header.payload.") has only two
      pieces after the split and is rejected as malformed. */
  lemma UnsignedTokenRejected(header: string, payload: string, expiry: int64)
    requires '.' !in header && '.' !in payload && payload != ""
    ensures JwtPayloadBytes(MojangToken(Some(header + "." + payload + "."), expiry))
      == Err(IllegalState(InvalidFormat))
  {
    var parts := [header, payload];
    assert Join(parts, '.') + seq(1, _ => '.') == header + "." + payload + ".";
    JavaSplitJoin(parts, '.', 1);
  }

  /** An empty payload segment ("header..signature") passes the segment count
      and decodes to no bytes at all. */
  lemma EmptyPayloadSegment(header: string, signature: string, expiry: int64)
    requires '.' !in header && '.' !in signature && signature != ""
    ensures JwtPayloadBytes(MojangToken(Some(Compact(header, "", signature)), expiry)) == Ok([])
  {
    CompactSplit(header, "", signature, 0);
    assert Compact(header, "", signature) + seq(0, _ => '.') == Compact(header, "", signature);
  }
}

=== FILE: url_encoding.dfy ===
/** java.net.URLEncoder.encode(s, UTF_8), the application/x-www-form-urlencoded
    encoding of one key or value: ASCII letters, digits and "-_.*" stay as
    they are, a space becomes '+', and every other character is written as
    its UTF-8 bytes, each as '%' and two uppercase hex digits. The decoder
    beside it is the inverse a form parser applies. */
module UrlEncoding {
  import opened Common
  import opened Text

  /** The characters URLEncoder leaves unchanged. */
  predicate Unreserved(c: char) {
    'a' <= c <= 'z' || 'A' <= c <= 'Z' || '0' <= c <= '9' || c == '-' || c == '_' || c == '.' || c == '*'
  }

  // ----- UTF-8 -----

  /** The UTF-8 encoding of one Unicode scalar value. */
  function Utf8(c: char): (b: seq<byte>)
    ensures 1 <= |b| <= 4
  {
    var n := c as int;
    if n < 0x80 then [n]
    else if n < 0x800 then [0xC0 + n / 64, 0x80 + n % 64]
    else if n < 0x10000 then [0xE0 + n / 4096, 0x80 + (n / 64) % 64, 0x80 + n % 64]
    else [0xF0 + n / 262144, 0x80 + (n / 4096) % 64, 0x80 + (n / 64) % 64, 0x80 + n % 64]
  }

  /** The length of a UTF-8 sequence announced by its first byte, 0 when the
      byte cannot start one. */
  function Utf8Length(lead: byte): (n: nat)
    ensures n <= 4
  {
    if lead < 0x80 then 1
    else if 0xC0 <= lead < 0xE0 then 2
    else if 0xE0 <= lead < 0xF0 then 3
    else if 0xF0 <= lead < 0xF8 then 4
    else 0
  }

  predicate Continuation(b: byte) {
    0x80 <= b < 0xC0
  }

  /** The scalar value a complete UTF-8 sequence stands for. */
  function Utf8Decode(b: seq<byte>): (c: Option<char>)
    ensures c.Some? ==> 1 <= |b| <= 4
  {
    if |b| == 0 || Utf8Length(b[0]) != |b| then None
    else if exists k :: 1 <= k < |b| && !Continuation(b[k]) then None
    else
      var n :=
        if |b| == 1 then b[0] as int
        else if |b| == 2 then (b[0] as int - 0xC0) * 64 + (b[1] as int - 0x80)
        else if |b| == 3 then (b[0] as int - 0xE0) * 4096 + (b[1] as int - 0x80) * 64 + (b[2] as int - 0x80)
        else (b[0] as int - 0xF0) * 262144 + (b[1] as int - 0x80) * 4096 + (b[2] as int - 0x80) * 64 + (b[3] as int - 0x80);
      if 0 <= n < 0xD800 || 0xE000 <= n < 0x11_0000 then Some(n as char) else None
  }

  lemma Split64(n: nat)
    ensures n == (n / 64) * 64 + n % 64
    ensures n / 4096 == (n / 64) / 64
    ensures n / 262144 == (n / 4096) / 64
  {
  }

  /** Decoding the UTF-8 bytes of a character gives the character back. */
  lemma Utf8RoundTrip(c: char)
    ensures Utf8Decode(Utf8(c)) == Some(c)
  {
    var n := c as int;
    var b := Utf8(c);
    Split64(n);
    Split64(n / 64);
    Split64(n / 4096);
    if n < 0x80 {
    } else if n < 0x800 {
      assert (b[0] as int - 0xC0) * 64 + (b[1] as int - 0x80) == n;
    } else if n < 0x10000 {
      assert (b[0] as int - 0xE0) * 4096 + (b[1] as int - 0x80) * 64 + (b[2] as int - 0x80) == n;
    } else {
      assert (b[0] as int - 0xF0) * 262144 + (b[1] as int - 0x80) * 4096 + (b[2] as int - 0x80) * 64 + (b[3] as int - 0x80) == n;
    }
  }

  // ----- percent escapes -----

  /** Uppercase hex digit (URLEncoder writes A-F in capitals). */
  function HexUpper(d: nat): (c: char)
    requires d < 16
    ensures CharDigit(c) == Some(d)
    ensures '0' <= c <= '9' || 'A' <= c <= 'F'
  {
    if d < 10 then ('0' as int + d) as char else ('A' as int + d - 10) as char
  }

  function PercentByte(b: byte): (s: string)
    ensures |s| == 3
  {
    ['%', HexUpper(b / 16), HexUpper(b % 16)]
  }

  /** Each byte as a three-character escape. */
  function Percent(b: seq<byte>): (s: string)
    ensures |s| == 3 * |b|
  {
    if |b| == 0 then "" else PercentByte(b[0]) + Percent(b[1..])
  }

  /** The encoding of one character. */
  function EncodeChar(c: char): (s: string)
    ensures 1 <= |s|
  {
    if Unreserved(c) then [c]
    else if c == ' ' then "+"
    else Percent(Utf8(c))
  }

  /** URLEncoder.encode(s, StandardCharsets.UTF_8). */
  function UrlEncode(s: string): (r: string)
    ensures |r| >= |s|
  {
    if |s| == 0 then "" else EncodeChar(s[0]) + UrlEncode(s[1..])
  }

  /** A character is written as one character exactly when it needs no escape. */
  lemma EncodeCharLength(c: char)
    ensures |EncodeChar(c)| == 1 <==> Unreserved(c) || c == ' '
  {
  }

  /** The encoding keeps the length of the text exactly when no character of
      it needs an escape. */
  lemma {:induction false} UrlEncodeLength(s: string)
    ensures |UrlEncode(s)| == |s| <==> forall k :: 0 <= k < |s| ==> Unreserved(s[k]) || s[k] == ' '
  {
    if |s| > 0 {
      UrlEncodeLength(s[1..]);
      EncodeCharLength(s[0]);
      assert forall k :: 1 <= k < |s| ==> s[1..][k - 1] == s[k];
    }
  }

  /** Text of unreserved characters is its own encoding. */
  lemma {:induction false} UrlEncodeUnreserved(s: string)
    requires forall k :: 0 <= k < |s| ==> Unreserved(s[k])
    ensures UrlEncode(s) == s
  {
    if |s| > 0 {
      UrlEncodeUnreserved(s[1..]);
      assert s == [s[0]] + s[1..];
    }
  }

  /** An encoded text uses only letters, digits, "-_.*", '+' and '%'. */
  predicate EncodedChar(c: char) {
    Unreserved(c) || c == '+' || c == '%'
  }

  predicate AllEncoded(s: string) {
    forall k :: 0 <= k < |s| ==> EncodedChar(s[k])
  }

  lemma AllEncodedConcat(a: string, b: string)
    requires AllEncoded(a) && AllEncoded(b)
    ensures AllEncoded(a + b)
  {
    forall k | 0 <= k < |a + b| ensures EncodedChar((a + b)[k]) {
      if k >= |a| {
        assert (a + b)[k] == b[k - |a|];
      }
    }
  }

  lemma {:induction false} PercentChars(b: seq<byte>)
    ensures AllEncoded(Percent(b))
  {
    if |b| > 0 {
      PercentChars(b[1..]);
      AllEncodedConcat(PercentByte(b[0]), Percent(b[1..]));
    }
  }

  lemma EncodeCharChars(c: char)
    ensures AllEncoded(EncodeChar(c))
  {
    if !Unreserved(c) && c != ' ' {
      PercentChars(Utf8(c));
    }
  }

  lemma {:induction false} UrlEncodeAllEncoded(s: string)
    ensures AllEncoded(UrlEncode(s))
  {
    if |s| > 0 {
      UrlEncodeAllEncoded(s[1..]);
      EncodeCharChars(s[0]);
      AllEncodedConcat(EncodeChar(s[0]), UrlEncode(s[1..]));
    }
  }

  /** The encoder's output never holds the form's own separators '&' and '='
      (nor anything else outside its small alphabet). */
  lemma UrlEncodeChars(s: string)
    ensures forall k :: 0 <= k < |UrlEncode(s)| ==> EncodedChar(UrlEncode(s)[k])
    ensures '&' !in UrlEncode(s) && '=' !in UrlEncode(s)
  {
    UrlEncodeAllEncoded(s);
  }

  // ----- decoding -----

  /** The byte of a "%XX" escape at the start of `s`. */
  function EscapedByte(s: string): Option<byte>
  {
    if |s| >= 3 && s[0] == '%' && CharDigit(s[1]).Some? && CharDigit(s[2]).Some? then
      Some(CharDigit(s[1]).value * 16 + CharDigit(s[2]).value)
    else None
  }

  /** `n` consecutive escapes at the start of `s`. */
  function EscapedBytes(s: string, n: nat): (r: Option<seq<byte>>)
    ensures r.Some? ==> |r.value| == n && 3 * n <= |s|
  {
    if n == 0 then Some([])
    else match EscapedByte(s)
      case None => None
      case Some(b) =>
        match EscapedBytes(s[3..], n - 1)
        case None => None
        case Some(rest) => Some([b] + rest)
  }

  /** One decoded character and the number of characters it took. */
  function DecodeStep(s: string): (r: Option<(char, nat)>)
    requires |s| > 0
    ensures r.Some? ==> 1 <= r.value.1 <= |s|
  {
    if s[0] == '+' then Some((' ', 1))
    else if s[0] != '%' then Some((s[0], 1))
    else match EscapedByte(s)
      case None => None
      case Some(lead) =>
        var n := Utf8Length(lead);
        if n == 0 then None
        else match EscapedBytes(s, n)
          case None => None
          case Some(b) =>
            match Utf8Decode(b)
            case None => None
            case Some(c) => Some((c, 3 * n))
  }

  /** Form decoding of one key or value; None on a malformed escape. */
  function UrlDecode(s: string): Option<string>
    decreases |s|
  {
    if |s| == 0 then Some("")
    else match DecodeStep(s)
      case None => None
      case Some((c, k)) =>
        match UrlDecode(s[k..])
        case None => None
        case Some(rest) => Some([c] + rest)
  }

  lemma EscapedBytePercent(b: byte, rest: string)
    ensures EscapedByte(PercentByte(b) + rest) == Some(b)
  {
    var s := PercentByte(b) + rest;
    assert s[0] == '%' && s[1] == HexUpper(b / 16) && s[2] == HexUpper(b % 16);
  }

  lemma {:induction false} EscapedBytesPercent(b: seq<byte>, rest: string)
    ensures EscapedBytes(Percent(b) + rest, |b|) == Some(b)
  {
    if |b| > 0 {
      var s := Percent(b) + rest;
      assert s == PercentByte(b[0]) + (Percent(b[1..]) + rest);
      EscapedBytePercent(b[0], Percent(b[1..]) + rest);
      assert s[3..] == Percent(b[1..]) + rest;
      EscapedBytesPercent(b[1..], rest);
      assert [b[0]] + b[1..] == b;
    }
  }

  lemma Utf8LeadLength(c: char)
    ensures Utf8Length(Utf8(c)[0]) == |Utf8(c)|
  {
  }

  /** The decoder reads back exactly one encoded character. */
  lemma DecodeStepEncodeChar(c: char, rest: string)
    ensures DecodeStep(EncodeChar(c) + rest) == Some((c, |EncodeChar(c)|))
  {
    var s := EncodeChar(c) + rest;
    if !Unreserved(c) && c != ' ' {
      var b := Utf8(c);
      assert s == PercentByte(b[0]) + (Percent(b[1..]) + rest);
      EscapedBytePercent(b[0], Percent(b[1..]) + rest);
      Utf8LeadLength(c);
      EscapedBytesPercent(b, rest);
      Utf8RoundTrip(c);
    }
  }

  /** Decoding undoes URLEncoder.encode. */
  lemma {:induction false} UrlDecodeEncode(s: string)
    ensures UrlDecode(UrlEncode(s)) == Some(s)
  {
    if |s| > 0 {
      var e := EncodeChar(s[0]);
      var t := UrlEncode(s[1..]);
      DecodeStepEncodeChar(s[0], t);
      assert (e + t)[|e|..] == t;
      UrlDecodeEncode(s[1..]);
      assert [s[0]] + s[1..] == s;
    }
  }

  /** Two texts with the same encoding are the same text. */
  lemma UrlEncodeInjective(a: string, b: string)
    requires UrlEncode(a) == UrlEncode(b)
    ensures a == b
  {
    UrlDecodeEncode(a);
    UrlDecodeEncode(b);
  }
}

=== FILE: xbox.dfy ===
/** XboxAuthenticator: exchanges a Microsoft access token for an Xbox Live
    (XBL) user token, and that for an XSTS token for the Minecraft services.
    Both calls post the same JSON envelope and read the reply the same way.
    The transport is the parameter `send`, and Instant.parse followed by
    toEpochMilli is the parameter `parseInstant` (None where it throws). */
module XboxAuthenticator {
  import opened Common
  import opened Text
  import opened Json
  import opened Tokens

  const XblTokenUri := "https://user.auth.xboxlive.com/user/authenticate"
  const XstsTokenUri := "https://xsts.auth.xboxlive.com/xsts/authorize"
  const XblRelyingParty := "http://auth.xboxlive.com"
  const XstsRelyingParty := "rp://api.minecraftservices.com/"

  const RequestFailed := "Authentication request to Xbox Live failed"
  const ErrorPrefix := "Authentication request to Xbox Live returned error: "

  /** The documented XErr codes and their meaning, as a table. */
  const KnownErrors: map<int, string> := map[
    2148916233 := "No Xbox profile associated with account",
    2148916235 := "Not available in country",
    2148916236 := "Adult verification required (South Korea)",
    2148916237 := "Adult verification required (South Korea)",
    2148916238 := "Child account must be added to a family"]

  /** errorDescription: the text shown for an XErr code. */
  function ErrorDescription(code: int64): (d: string)
  {
    if code == 2148916233 then "No Xbox profile associated with account"
    else if code == 2148916235 then "Not available in country"
    else if code == 2148916236 || code == 2148916237 then "Adult verification required (South Korea)"
    else if code == 2148916238 then "Child account must be added to a family"
    else "Unknown error"
  }

  /** The message of the exception an XErr reply turns into. */
  function ErrorMessage(code: int64): (m: string)
    ensures m == ErrorPrefix + IntToString(code, 10) + " (" + ErrorDescription(code) + ")"
  {
    ErrorPrefix + IntToString(code, 10) + " (" + ErrorDescription(code) + ")"
  }

  /** The if-chain agrees with the table and is total: every code outside
      it, 2148916234 among them, is an unknown error. */
  lemma ErrorDescriptionTable(code: int64)
    ensures code in KnownErrors ==> ErrorDescription(code) == KnownErrors[code]
    ensures code !in KnownErrors ==> ErrorDescription(code) == "Unknown error"
    ensures ErrorDescription(2148916234) == "Unknown error"
  {
    assert 2148916234 !in KnownErrors;
  }

  /** The message reads back: after the fixed prefix comes the XErr value in
      decimal, which parses back to the code. */
  lemma ErrorMessageCode(code: int64)
    ensures var m := ErrorMessage(code);
      var digits := IntToString(code, 10);
      m[|ErrorPrefix|..|ErrorPrefix| + |digits|] == digits && ParseInt(digits, 10) == Some(code as int)
  {
    ParseIntToString(code, 10);
    var digits := IntToString(code, 10);
    var rest := " (" + ErrorDescription(code) + ")";
    assert ErrorMessage(code) == ErrorPrefix + digits + rest;
    Middle(ErrorPrefix, digits, rest);
  }

  /** After the code, the message ends with the code's description in
      parentheses. */
  lemma ErrorMessageDescription(code: int64)
    ensures var digits := IntToString(code, 10);
      ErrorMessage(code)[|ErrorPrefix| + |digits|..] == " (" + ErrorDescription(code) + ")"
  {
    var digits, rest := IntToString(code, 10), " (" + ErrorDescription(code) + ")";
    assert ErrorMessage(code) == ErrorPrefix + digits + rest;
    Suffix(ErrorPrefix, digits, rest);
  }

  lemma Middle(a: string, b: string, c: string)
    ensures (a + b + c)[|a|..|a| + |b|] == b
  {
  }

  lemma Suffix(a: string, b: string, c: string)
    ensures (a + b + c)[|a| + |b|..] == c
  {
  }

  /** The Properties of the XBL request: the RPS ticket is "d=" and the
      Microsoft access token. */
  function XblProperties(t: MicrosoftToken): (p: Json)
    ensures p.JObject? && p.fields.Keys == {"AuthMethod", "SiteName", "RpsTicket"}
    ensures p.fields["AuthMethod"] == JString("RPS")
    ensures p.fields["SiteName"] == JString("user.auth.xboxlive.com")
    ensures p.fields["RpsTicket"] == JString("d=" + Show(t.value))
  {
    JObject(map["AuthMethod" := JString("RPS"), "SiteName" := JString("user.auth.xboxlive.com"),
                "RpsTicket" := JString("d=" + Show(t.value))])
  }

  /** The Properties of the XSTS request: the one user token is the XBL token. */
  function XstsProperties(t: XboxToken): (p: Json)
    ensures p.JObject? && p.fields.Keys == {"SandboxId", "UserTokens"}
    ensures p.fields["SandboxId"] == JString("RETAIL")
    ensures p.fields["UserTokens"] == JArray([StringValue(t.value)])
  {
    JObject(map["SandboxId" := JString("RETAIL"), "UserTokens" := JArray([StringValue(t.value)])])
  }

  /** handleTokenRequest's request: the envelope around the properties. */
  function TokenRequest(uri: string, properties: Json, relyingParty: string): (r: JsonRequest)
    ensures r.uri == uri && r.headers == map["Content-Type" := "application/json"]
    ensures r.body.Some? && r.body.value.JObject?
    ensures r.body.value.fields.Keys == {"Properties", "RelyingParty", "TokenType"}
    ensures r.body.value.fields["Properties"] == properties
    ensures r.body.value.fields["RelyingParty"] == JString(relyingParty)
    ensures r.body.value.fields["TokenType"] == JString("JWT")
  {
    JsonRequest(uri, map["Content-Type" := "application/json"],
                Some(JObject(map["Properties" := properties, "RelyingParty" := JString(relyingParty),
                                 "TokenType" := JString("JWT")])))
  }

  /** getXblToken's request: posted to the XBL endpoint for the plain-HTTP
      Xbox Live relying party, with the Microsoft token in the RPS ticket. */
  function XblRequest(t: MicrosoftToken): (r: JsonRequest)
    ensures r.uri == XblTokenUri && r.body.Some? && r.body.value.JObject?
    ensures "RelyingParty" in r.body.value.fields && "Properties" in r.body.value.fields
    ensures r.body.value.fields["RelyingParty"] == JString(XblRelyingParty)
    ensures var props := r.body.value.fields["Properties"];
      props.JObject? && "RpsTicket" in props.fields && props.fields["RpsTicket"] == JString("d=" + Show(t.value))
  {
    TokenRequest(XblTokenUri, XblProperties(t), XblRelyingParty)
  }

  /** getXstsToken's request: posted to the XSTS endpoint for the Minecraft
      services relying party, naming the XBL token as the one user token. */
  function XstsRequest(t: XboxToken): (r: JsonRequest)
    ensures r.uri == XstsTokenUri && r.body.Some? && r.body.value.JObject?
    ensures "RelyingParty" in r.body.value.fields && "Properties" in r.body.value.fields
    ensures r.body.value.fields["RelyingParty"] == JString(XstsRelyingParty)
    ensures var props := r.body.value.fields["Properties"];
      props.JObject? && "UserTokens" in props.fields && props.fields["UserTokens"] == JArray([StringValue(t.value)])
  {
    TokenRequest(XstsTokenUri, XstsProperties(t), XstsRelyingParty)
  }

  /** DisplayClaims.xui[0].uhs, with nanojson's lenient defaults along the
      way: a missing object or array reads as an empty one, and an empty xui
      array gives an empty claim, so the hash is then null. */
  function UserHash(json: JsonObject): (r: Nullable)
    ensures var xui := GetArray(GetObject(json, "DisplayClaims"), "xui");
      if |xui| > 0 && xui[0].JObject? then r == GetString(xui[0].fields, "uhs") else r == None
  {
    GetString(ObjectAt(GetArray(GetObject(json, "DisplayClaims"), "xui"), 0), "uhs")
  }

  /** handleTokenRequest after the exchange. XErr is looked at before anything
      else; then the token, its absolute NotAfter instant and the user hash. */
  function HandleTokenReply(reply: Reply<JsonObject>, parseInstant: string -> Option<int64>): (r: Result<XboxToken>)
    ensures reply.Failed? ==> r == Err(AuthenticationFailure(RequestFailed))
    ensures reply.Received? && Has(reply.body, "XErr") ==>
      r == Err(AuthenticationFailure(ErrorMessage(GetLong(reply.body, "XErr"))))
    ensures reply.Received? && !Has(reply.body, "XErr") ==>
      var json := reply.body;
      match GetString(json, "NotAfter")
      case None => r == Err(NullDereference)
      case Some(text) =>
        if parseInstant(text).None? then r == Err(DateTimeParse)
        else r == Ok(XboxToken(GetString(json, "Token"), parseInstant(text).value, UserHash(json)))
  {
    match reply
    case Failed => Err(AuthenticationFailure(RequestFailed))
    case Received(json) =>
      if Has(json, "XErr") then Err(AuthenticationFailure(ErrorMessage(GetLong(json, "XErr"))))
      else
        var token := GetString(json, "Token");
        match GetString(json, "NotAfter")
        case None => Err(NullDereference)
        case Some(text) =>
          match parseInstant(text)
          case None => Err(DateTimeParse)
          case Some(expiry) => Ok(XboxToken(token, expiry, UserHash(json)))
  }

  /** getXblToken: the XBL envelope goes out with the Microsoft token in its
      RPS ticket, and the token comes back from the reply. */
  function GetXblToken(t: MicrosoftToken, send: JsonRequest -> Reply<JsonObject>,
                       parseInstant: string -> Option<int64>): (r: Result<XboxToken>)
    ensures send(XblRequest(t)).Failed? ==> r == Err(AuthenticationFailure(RequestFailed))
    ensures r.Ok? ==> send(XblRequest(t)).Received?
    ensures r.Ok? ==> r.value.value == GetString(send(XblRequest(t)).body, "Token")
  {
    HandleTokenReply(send(XblRequest(t)), parseInstant)
  }

  /** getXstsToken: the XSTS envelope goes out naming the XBL token, and the
      XSTS token comes back from the reply. */
  function GetXstsToken(t: XboxToken, send: JsonRequest -> Reply<JsonObject>,
                        parseInstant: string -> Option<int64>): (r: Result<XboxToken>)
    ensures send(XstsRequest(t)).Failed? ==> r == Err(AuthenticationFailure(RequestFailed))
    ensures r.Ok? ==> send(XstsRequest(t)).Received?
    ensures r.Ok? ==> r.value.value == GetString(send(XstsRequest(t)).body, "Token")
  {
    HandleTokenReply(send(XstsRequest(t)), parseInstant)
  }

  /** A reply carrying an XErr is an error even when it also carries a token. */
  lemma XErrWins(json: JsonObject, parseInstant: string -> Option<int64>)
    requires Has(json, "XErr")
    ensures HandleTokenReply(Received(json), parseInstant).Err?
    ensures HandleTokenReply(Received(json), parseInstant).failure.AuthenticationFailure?
  {
  }

  /** On success the token's expiry is the reply's NotAfter instant, whatever
      the clock says, and its value is the reply's Token. */
  lemma SuccessFields(json: JsonObject, parseInstant: string -> Option<int64>)
    requires HandleTokenReply(Received(json), parseInstant).Ok?
    ensures var t := HandleTokenReply(Received(json), parseInstant).value;
      !Has(json, "XErr") && GetString(json, "NotAfter").Some? &&
      Some(t.expiryTime) == parseInstant(GetString(json, "NotAfter").value) &&
      t.value == GetString(json, "Token") && t.userHash == UserHash(json)
  {
  }

  /** A reply without user claims still yields a token; only its user hash is
      null. */
  lemma NoClaimsNullHash(json: JsonObject, parseInstant: string -> Option<int64>)
    requires !Has(json, "XErr") && GetString(json, "NotAfter").Some?
    requires parseInstant(GetString(json, "NotAfter").value).Some?
    requires |GetArray(GetObject(json, "DisplayClaims"), "xui")| == 0
    ensures HandleTokenReply(Received(json), parseInstant).Ok?
    ensures HandleTokenReply(Received(json), parseInstant).value.userHash == None
  {
  }

  /** The XSTS step asks for exactly the token the XBL step returned: the
      XSTS request's one user token is the XBL reply's Token. */
  lemma XstsCarriesXblToken(json: JsonObject, parseInstant: string -> Option<int64>)
    requires HandleTokenReply(Received(json), parseInstant).Ok?
    requires GetString(json, "Token").Some?
    ensures var xbl := HandleTokenReply(Received(json), parseInstant).value;
      var props := XstsRequest(xbl).body.value.fields["Properties"];
      props.fields["UserTokens"] == JArray([JString(GetString(json, "Token").value)])
  {
  }
}
